=== FILE: README.md ===
# News portal backend — a Dafny model

News_portal is a Django REST backend with users, companies, posts and invite
tokens. This project models the part of it that makes decisions and changes
state. Everything outside that part is opaque here: the ORM, HTTP framework,
JWT library, password hasher and mail queue.

- **State.** The database is a `Store`: one map from primary key to row for
  each of users, companies, posts and invite tokens.
- **Requests.** A request is a method plus an `Actor`, which is either the
  anonymous user or a stored user and its key.
- **Endpoints.** Every endpoint is a pure function. It returns either the new
  store (plus whatever the endpoint reports) or an `Error`. A server-side
  crash is also an `Error` value.
- **Two revisions.** The repository has two revisions of most endpoints, and
  both are modelled:
  - the earlier one: rest_api/ over the models of portal_app/models.py;
  - the later one: users/, posts/ and companies/.

  Lemmas relate the two wherever they should agree.

The modules, in dependency order:

- `Outcomes`: `Option`, `Result` and the error values.
- `Fields`: DRF's character fields. A submitted value is stripped of
  surrounding whitespace; it is blank when nothing is left; `max_length`
  bounds the stripped value; the stripped value is what is passed on.
- `Tables`: keys for new rows (a key above every key in use, bulk insert
  under consecutive keys) and the smallest key, which is what `.first()` returns.
- `Models`: roles, topics, column bounds and the row types.
  - The database constraints: unique email and foreign keys (`Valid`).
  - The soft-delete view of posts (`Objects`).
  - The cascades when a user or company is deleted.
- `Requests`, `RestApiPermissions`, `UsersPermissions`,
  `CompaniesPermissions`: the permission classes as decision tables.
- `InviteTokens`: the invite-token manager, with the clock as a parameter.
- `UserManager`: `create_user` and `create_superuser`.
- `PostListUpdate`: the bulk merge of `PostListUpdate.update`. Later items
  win; entries keep the order of first occurrence; posts not named are
  untouched; the loop stops at the first id that was not fetched.
- `PostsViews`: post listing, soft delete, creation and the bulk-update view.
  Listing and creation are modelled twice: as written in posts/views.py,
  whose view declares no serializer, and as the earlier revision's view,
  which declares one.
- `Accounts`: the lookup by email, the login checks and single-row writes,
  shared by both revisions.
- `RestApiSerializers` and `RestApiViews`: the earlier revision's endpoints.
  - Its post listing is `PostsViews.ListPosts` with `hidesDeleted == false`,
    because portal_app's `Post` has no soft-delete manager.
  - Its post creation and bulk update (`RestApiViews.CreatePost`,
    `RestApiViews.BulkUpdate`) run the later code with every deletion flag
    dropped, because portal_app's `Post` has no `is_deleted` column: a
    created post is live and an update never changes the flag. Its user
    creation stores no `invite_accepted`, which portal_app's `User` lacks.
  - Its company listing is `CompaniesViews.ListCompanies` with the same
    setting.
- `UsersSerializers` and `UsersViews`: the later revision's account
  endpoints: registration, invitation, accepting an invite, password reset
  and confirmation, activation.
- `CompaniesViews` and `SeedCompanies`: the company listing, and the URL slug
  and seeding command.

What the model takes as parameters:

- **Password hasher.** A `Hasher` value with three parts: `make`
  (`make_password`), `unusable` and `check` (`check_password`).
- **Signed links.** Their decoded contents are parameters: an `Option` that
  is `None` when the link does not decode.
- **Clock.** The parameter `now`.
- **Fake-data generator.** Functions from the row index to a name and a
  date.
- **Post manager.** `posts/managers.py` is not part of this model, so whether
  `Post.objects` hides soft-deleted posts is the parameter `hidesDeleted`.
- **Post permissions.** `posts/permissions.py` is not part of this model, so
  the later post destroy takes the object-level decision as a function
  parameter.

Where the project's own description of the system differs from the code, the
model follows the code:

- Inviting does not skip emails already in use, creates no invite tokens and
  does not scope the new users to the inviter's company.
- Accepting an invite does not activate the user or set `invite_accepted`.
- The bulk post update has no authorship check.
- The later password-reset request never saves the new password.

## Model

| member | source | states |
|---|---|---|
| Fields.Trim | users/serializers.py:38-39 | a declared `EmailField` or `CharField` strips its value (`trim_whitespace` defaults to on): the result neither starts nor ends with whitespace, and is empty exactly when the value is all whitespace |
| Fields.TrimIsSlice | users/serializers.py:38-39 | stripping removes only whitespace, and only at the two ends: the result is a slice of the value with nothing but whitespace on either side |
| Fields.TrimFixesExactly | users/serializers.py:38-39 | a value is left as it is exactly when neither end is whitespace |
| Fields.TrimIdempotent | users/serializers.py:38-39 | stripping a stripped value changes nothing |
| Models.RoleValue | users/models.py:37-42 | every role's stored value fits the 10-character `user_type` column |
| Models.ParseRole | users/models.py:37-41 | exactly the three role values parse, and parsing inverts `RoleValue` |
| Models.TopicValue | posts/models.py:10-16 | every topic's stored value fits the 6-character `topic` column |
| Models.ParseTopic | posts/models.py:10-15 | exactly nature, sport, art and travel parse, and parsing inverts `TopicValue` |
| Models.Objects | posts/models.py:19-20 | the default manager yields a subset of the rows with their contents, including every live post; a hiding manager yields no deleted post; `all_objects` yields every row |
| Models.DeleteUser | posts/models.py:17 | deleting a user removes exactly that user and the posts they authored (the cascade declared on `author`), and the tokens issued to them (an assumed cascade); every other row is unchanged |
| Models.DeleteCompany | users/models.py:43 | deleting a company removes exactly that company and sets its users' company to null; nothing else changes |
| Models.DeleteUserPreservesValid | posts/models.py:17 | the cascade keeps unique emails and every foreign key valid |
| Models.DeleteCompanyPreservesValid | users/models.py:43 | the set-null keeps unique emails and every foreign key valid |
| RestApiPermissions.UserHasPermission | rest_api/permissions.py:5-12 | safe methods are open to all; PATCH/PUT need authentication; other unsafe methods need authenticated staff |
| RestApiPermissions.UserHasObjectPermission | rest_api/permissions.py:14-17 | safe is allowed; a write is allowed on oneself, or by staff on a non-superuser |
| RestApiPermissions.CompanyHasPermission | rest_api/permissions.py:21-28 | the same view-level table as the user class |
| RestApiPermissions.CompanyHasObjectPermission | rest_api/permissions.py:30-33 | a company never equals the actor, so an unsafe method is allowed iff the actor is staff |
| RestApiPermissions.PostHasPermission | rest_api/permissions.py:37-44 | like the user class, but any authenticated actor may also POST; only DELETE needs staff |
| RestApiPermissions.PostHasObjectPermission | rest_api/permissions.py:46-49 | the post is compared with the actor, not its author, so an unsafe method is allowed iff the actor is staff |
| RestApiPermissions.SuperuserWritableOnlyBySelf | rest_api/permissions.py:17 | an allowed write to a superuser comes from that superuser |
| RestApiPermissions.AuthorAloneCannotWritePost | rest_api/permissions.py:49 | a non-staff author may not write to their own post |
| RestApiPermissions.StaffIsMonotone | rest_api/permissions.py:5-49 | making the actor staff never turns an allow into a deny, in any class, at either level |
| RestApiPermissions.AuthenticationIsMonotone | rest_api/permissions.py:5-44 | authentication never turns a view-level allow into a deny |
| UsersPermissions.HasPermission | users/permissions.py:5-12 | the anonymous user is denied every method; authenticated actors may read and update; staff may do anything |
| UsersPermissions.HasObjectPermission | users/permissions.py:14-17 | safe is allowed; otherwise self, or staff on a non-superuser |
| UsersPermissions.NeverMorePermissive | users/permissions.py:5-12 | the later view-level check never allows what the earlier denies, and differs exactly on anonymous safe requests |
| UsersPermissions.SameObjectRule | users/permissions.py:14-17 | the object-level rule equals the earlier revision's on every input |
| CompaniesPermissions.HasPermission | companies/permissions.py:5-12 | safe is open; PATCH/PUT need authentication; POST and DELETE need staff |
| CompaniesPermissions.HasObjectPermission | companies/permissions.py:14-17 | an unsafe method on a company is allowed iff the actor is staff |
| CompaniesPermissions.SameAsEarlierRevision | companies/permissions.py:4-17 | both levels equal the earlier `CompanyPermissions` on every input |
| InviteTokens.Retrieve | users/managers.py:6-8 | a token is yielded iff its status is on and it expires strictly after `now` |
| InviteTokens.HiddenStaysHidden | users/managers.py:8 | advancing the clock never makes a hidden token retrievable again |
| InviteTokens.GetByValue | users/views.py:69 | `get(value=…)` over the manager: success names the only retrievable token with the value; "not found" iff no retrievable token has it; "multiple objects" iff more than one has it |
| InviteTokens.Consume | users/views.py:86-89 | a consumed token is never retrievable again, whatever the clock; value, user and creation time are kept |
| UserManager.CreateUserAsWritten | users/models.py:9-17 | a missing or empty email is rejected; with the default `user_type=None` every call that passes the email check fails |
| UserManager.CreateUser | users/models.py:9-17 | ok iff the email is non-empty and unused and the company exists; the new row holds exactly the given email, role (default Client), flags and encoded password; no other row changes |
| UserManager.CreateSuperuser | users/models.py:19-27 | an explicit staff or superuser flag other than true is rejected, staff first, before the email is looked at; otherwise creates a staff superuser with role Superuser |
| UserManager.DefaultRoleRejected | users/models.py:15 | on an empty database, the code as written rejects `create_user("a@b.c", "pw")` where the corrected manager creates the user |
| UserManager.CreateUserPreservesValid | users/models.py:32 | creating a user keeps emails unique and foreign keys valid |
| PostListUpdate.PutExtendsMapping | posts/serializers.py:18 | folding one more item into the id→data dictionary keeps the dictionary's defining properties for the longer request |
| PostListUpdate.DataMapping | posts/serializers.py:18 | one entry per distinct requested id, holding the data of the last item with that id, in order of first occurrence |
| PostListUpdate.ApplyAll | posts/serializers.py:20-26 | the post keys never change; every entry yields an updated post unless the loop stops early at a failure |
| PostListUpdate.ApplyAllFrame | posts/serializers.py:17-26 | posts the request does not name keep their rows |
| PostListUpdate.ApplyAllStopsAtMissing | posts/serializers.py:22-24 | the loop fails exactly at the first entry with no fetched post, and succeeds iff every entry's post was fetched |
| PostListUpdate.ApplyAllUpdates | posts/serializers.py:20-26 | each entry the loop reached is the fetched post with that entry's data applied, and is what ends up stored |
| PostListUpdate.ApplyAllLeavesRest | posts/serializers.py:20-26 | entries after the failure leave their posts as they were; earlier writes stay |
| PostsViews.ListPosts | rest_api/views.py:166-192 | for a view that declares its serializer: staff get the posts matching every given filter (exact title, text substring, topic), or an error for `company`; others get their own posts, or with any `company` parameter the posts of their company's users, or an error without a company |
| PostsViews.ListPostsAsWritten | posts/views.py:11-42 | succeeds exactly for a non-staff request without `company`, and then lists what the corrected view lists; the corrected view's errors are kept; every other request fails at `get_serializer` |
| PostsViews.StaffListingFails | posts/views.py:22-41 | a staff listing without filters lists every post the manager yields in the corrected view and fails as written |
| PostsViews.AddingFilterShrinks | rest_api/views.py:172-181 | adding a filter to a staff query never adds a post |
| PostsViews.NoFilterListsAll | rest_api/views.py:172-181 | a staff query without filters lists every post the manager yields |
| PostsViews.NonStaffIgnoresFilters | posts/views.py:32-39 | for non-staff only the presence of `company` matters; title, text, topic and the company value are ignored |
| PostsViews.SoftDeletedNeverListed | posts/views.py:22-37 | with a hiding manager no listing contains a soft-deleted post |
| PostsViews.SoftDelete | posts/views.py:50-52 | only the target's `is_deleted` changes, to true; every other post and table is unchanged |
| PostsViews.DestroyPost | posts/views.py:47-55 | 404 when the manager does not yield the post, a denial when the object check fails, otherwise the soft delete and nothing else |
| PostsViews.DestroyIsIdempotent | posts/views.py:47-53 | a second destroy changes nothing: it is a 404 under a hiding manager, otherwise it leaves the store as the first left it |
| PostsViews.DestroyedPostPersists | posts/models.py:18-20 | after a destroy the row still exists (`all_objects`) but a hiding manager no longer yields it |
| PostsViews.CreatePost | posts/views.py:44-45 | the anonymous user is refused before the body is validated; a missing or blank title, a text over its column and a missing topic or one outside the four choices are each refused, in that order; otherwise it succeeds exactly when the author row exists; the new post holds the stripped title and text, the submitted topic, the requesting user as author and `is_deleted` false unless submitted (posts/models.py:18); nothing else changes, and the database constraints keep holding |
| RestApiViews.CreatePost | rest_api/views.py:194-195 | the anonymous user is refused; it succeeds under exactly the later creation's conditions and fails as that one does whatever flag it is given; the new post is never deleted, since portal_app's `Post` has no `is_deleted` |
| RestApiViews.DropFlags | rest_api/views.py:213-217 | the items keep their ids and data but submit no `is_deleted`, which portal_app's `Post` cannot store |
| RestApiViews.BulkUpdate | rest_api/views.py:213-218 | refused iff some item does not validate; otherwise only posts change, their keys are kept, and no post's deletion flag changes; the loop reports a failure exactly when some item names an id with no post, and then names such an id, keeping the posts saved before it |
| RestApiViews.BulkFailure | rest_api/serializers.py:94-96 | over all posts, the loop fails exactly when some item names an id with no post, and reports one such id |
| PostsViews.BulkUpdateKeepsFlags | posts/serializers.py:22-24 | items that submit no `is_deleted` never change any post's deletion flag |
| PostListUpdate.LastPatchUnflagged | posts/serializers.py:18 | when no item submits `is_deleted`, the data kept for an id submits none either |
| PostsViews.CreatePostAsWritten | posts/views.py:11-14 | the anonymous user is refused; every authenticated POST fails at `get_serializer` |
| PostsViews.CreateNeverCompletes | posts/views.py:11-45 | every post the corrected view creates under a new key is refused as written |
| PostsViews.Fetched | posts/views.py:64 | the fetched posts are exactly the requested ids the manager yields, with their stored contents |
| PostsViews.BulkUpdate | posts/views.py:63-68 | refused iff some item does not validate; otherwise only posts change, their keys are kept, and no actor is consulted; the loop reports a failure exactly when some item names a post the manager does not yield, and then names such an id, keeping the posts saved before it |
| PostsViews.BulkFailure | posts/serializers.py:22-24 | the loop fails exactly when some named post is not fetched, and reports one such id |
| PostsViews.MappingFetchedIff | posts/views.py:64 | every dictionary entry has a fetched post exactly when every named post is visible; an entry without one names an invisible or absent post |
| PostsViews.ItemValid | posts/serializers.py:29-35 | a valid item submits a non-blank title within its column, a text within its column, and a topic that is one of the four choices (posts/models.py:16), matched unstripped |
| PostsViews.ValidItemStoresSubmitted | posts/serializers.py:22-24 | a valid item stores its submitted title and the choice its topic string names, and keeps the author |
| PostListUpdate.ApplyPatch | posts/serializers.py:24 | every submitted field is stored, every other field and the author are kept; a topic string is stored as the choice it names |
| PostListUpdate.ApplyAllKeepsAuthors | posts/serializers.py:22-26 | the loop never changes an author |
| PostListUpdate.ApplyAllKeepsFlags | posts/serializers.py:22-26 | entries without a flag leave every deletion flag as stored |
| PostsViews.MappingIsFetched | posts/views.py:64 | when every named post is visible, every dictionary entry has a fetched post |
| PostsViews.BulkUpdateCompletes | posts/serializers.py:20-26 | when every item validates and names a visible post, the update completes with one result per distinct id |
| PostsViews.BulkUpdateAppliesLastData | posts/serializers.py:16-26 | when every item validates and names a visible post, each named post receives the data of the last item naming it |
| PostsViews.BulkUpdateLeavesUnnamed | posts/serializers.py:17-26 | a bulk update leaves every post the request does not name as it was |
| PostsViews.BulkUpdateKeepsAuthors | posts/serializers.py:30 | for items carrying no author key, a bulk update never changes any post's author |
| Accounts.FirstByEmail | rest_api/views.py:42 | the selected user holds the email and has the smallest key among those that do; none iff nobody holds it |
| Accounts.FirstByEmailFindsOwner | users/models.py:32 | with unique emails, an email selects the user holding it |
| Accounts.FirstByEmailSeesOnlyEmails | rest_api/views.py:42 | which user an email selects depends only on the keys and email columns |
| Accounts.Authenticate | rest_api/views.py:42-48 | login succeeds iff the selected user exists, is active and the password checks; absent or inactive is reported before a wrong password |
| Accounts.AddPreservesValid | users/models.py:32-43 | a new row whose email nobody holds and whose company exists keeps emails unique and foreign keys valid |
| RestApiSerializers.PasswordReset | rest_api/serializers.py:15-27 | the email and a password that strips to non-blank and at most 128 characters are required; the stripped email selects the user; an absent or inactive user is "not found"; otherwise only that user's password changes, to the stripped password's encoding |
| RestApiSerializers.CreateUser | rest_api/serializers.py:30-48 | ok iff the stripped email is unused, the password is valid, the profile fits, the company exists and `user_type` is submitted; the new user holds the stripped values, is inactive, staff iff Admin, not superuser and without an accepted invite (portal_app's `User` has no such column); no other row changes |
| RestApiSerializers.UpdateUser | rest_api/serializers.py:50-54 | without a password nothing changes; a valid password replaces only the stored password, with the stripped password's encoding; a blank or overlong one is rejected |
| RestApiViews.Login | rest_api/views.py:39-53 | missing keys are errors; otherwise it succeeds exactly when `Authenticate` does, and for the user the email selects; only that user's last login changes |
| RestApiViews.ActivateAccount | rest_api/views.py:66-79 | an undecodable or unknown uid is "invalid link" and changes nothing; otherwise only that user's active flag changes, to true |
| RestApiViews.ListUsers | rest_api/views.py:88-95 | staff see every user, active or not; anyone else sees only themself (nothing for the anonymous user) |
| RestApiViews.DestroyUser | rest_api/views.py:97-102 | DELETE needs staff; an unknown key is "does not exist"; otherwise the user and their dependents are removed |
| RestApiViews.StaffDeletesSuperuser | rest_api/views.py:97-102 | staff can delete a superuser, although the object-level rule denies staff any write to one |
| RestApiViews.CreateUser | rest_api/views.py:104-109 | only staff can create, and the created user is inactive |
| RestApiViews.ResetPassword | rest_api/views.py:124-131 | the anonymous user is refused; an unknown or inactive target is 404; the object rule must allow the write; then the serializer update runs |
| RestApiViews.ResetPasswordIsSelfOrStaff | rest_api/views.py:124-131 | a password changed through the action belongs to the actor, or was changed by staff on a non-superuser |
| RestApiViews.DestroyPostAsWritten | rest_api/views.py:197-205 | DELETE needs staff and an existing post; success leaves the store unchanged |
| RestApiViews.DestroyPost | rest_api/views.py:197-205 | same checks; success marks exactly the target post deleted |
| RestApiViews.DestroyPostIsLost | rest_api/views.py:201-202 | a staff destroy of a live post reports success but leaves it live, where the corrected view marks it deleted |
| RestApiViews.ResetThenLogin | rest_api/serializers.py:19-27 | after a reset, logging in with the stripped email and password succeeds for the user the email selected, given a hasher that accepts its own encoding |
| RestApiViews.ResetPasswordThenLogin | rest_api/views.py:124-131 | after a password change through the action, the changed user logs in with its email and the stripped new password, given a hasher that accepts its own encoding |
| RestApiViews.CreateActivateLogin | rest_api/views.py:66-79 | a created user cannot log in; after activation by its key it logs in with the email and password it was created with, as stripped |
| UsersSerializers.AdminRegister | users/serializers.py:10-33 | ok iff the stripped user fields and the company validate; stores exactly one new company and one new user linked to it, holding the stripped values, an Admin and staff; nothing else changes |
| UsersSerializers.AdminRegisterPreservesValid | users/serializers.py:23-33 | registration keeps emails unique and foreign keys valid |
| UsersSerializers.CompanyValid | companies/serializers.py:8-13 | a non-blank name within its column, a non-blank url of any length, an address within its column and a date; the cleaned company then fits every column but possibly the url's |
| UsersSerializers.UrlLengthUnchecked | companies/serializers.py:9 | a valid company stays valid with any non-blank url, however long |
| UsersSerializers.CleanCompany | companies/serializers.py:8-13 | the nested serializer passes on the stripped name, url and address, and the date as given; a required name stays non-blank and within its column |
| Accounts.FromForm | users/serializers.py:27-28 | the new row holds the stripped submitted columns, the hash of the stripped password, the given role and the model defaults for the rest |
| Accounts.Add | users/serializers.py:32 | the row is stored under a key no user held, and nothing else changes |
| Accounts.TouchLogin | users/views.py:105 | only the user's last login changes, to `now` |
| Accounts.PutPreservesValid | users/models.py:32 | rewriting a row with an email no other user holds and an existing or no company keeps the database constraints |
| UsersViews.AcceptValid | users/serializers.py:120-130 | the stripped email is present, within its column and held by no other user; the password is present; the profile fits; a given company exists |
| UsersViews.AcceptedFormKeepsValid | users/serializers.py:122-126 | saving the invited row from an accepted form would keep emails unique and every foreign key valid |
| UsersSerializers.LoginValidate | users/serializers.py:36-54 | field bounds on the stripped values first; a `company` key, which `Meta.fields` makes an optional primary-key field, must name an existing company; then the same checks and error order as the earlier login, for the user the stripped email selects |
| UsersSerializers.PasswordResetValidate | users/serializers.py:57-73 | an absent or inactive user is "not found"; otherwise the result is the user the stripped email selects, and the store is not an output, so the password is never saved |
| UsersSerializers.CreateUser | users/serializers.py:76-97 | the role defaults to Client; a company key is required and must exist; the stripped email must be unused; the user holds the stripped values, is inactive and staff iff Admin; nothing else changes |
| UsersSerializers.CreateUserPreservesValid | users/serializers.py:90-97 | creating a user keeps emails unique and foreign keys valid |
| UsersSerializers.Invited | users/serializers.py:112-114 | an invited row holds the email, is inactive and has no company |
| UsersSerializers.InviteUsers | users/serializers.py:100-117 | every email must strip to non-blank and at most 255 characters, else the email field is invalid; otherwise the outcome is the invitation of the stripped emails |
| UsersSerializers.Invite | users/serializers.py:108-117 | any repeated or used email fails the whole insert; otherwise one inactive row per email, in list order, under consecutive new keys above every key in use; no existing row or other table changes, and the database constraints keep holding |
| UsersViews.RegisterAdmin | users/views.py:36-47 | a successful registration also records the new admin's login time |
| UsersViews.Login | users/views.py:100-110 | succeeds exactly when the serializer accepts, for the selected user; only the last login changes |
| UsersViews.LoginAgreesWithEarlierRevision | users/serializers.py:43-54 | on well-formed requests naming no company or an existing one, the later login equals the earlier one given the stripped email and password, and equals it outright when neither has surrounding whitespace; a missing company is refused |
| UsersViews.RequestPasswordReset | users/views.py:114-121 | success returns the store unchanged |
| UsersViews.ResetRequestKeepsLogins | users/serializers.py:65-73 | after a reset request every login, with or without a company key, has exactly the outcome it had before |
| UsersViews.ConfirmResetPassword | users/views.py:125-140 | an undecodable link or a missing claim is an error; an unknown user is "does not exist"; otherwise the user's stored password becomes the claim verbatim, and the login time is recorded |
| UsersViews.ConfirmIsIdempotent | users/views.py:130-135 | confirming the same link twice at the same moment equals confirming once |
| UsersViews.ActivateAccount | users/views.py:144-161 | a failed decode, missing claim or unknown user is an error; otherwise the user becomes active and the login time is recorded |
| UsersViews.ActivationAgreesWithEarlierRevision | users/views.py:148-156 | activation equals the earlier revision's plus a recorded login time |
| UsersViews.ListUsers | users/views.py:170-177 | the anonymous user is refused; staff see every user; others see only themself |
| UsersViews.ListUsersAgreesWithEarlierRevision | users/views.py:170-177 | for authenticated actors the listing is the earlier revision's |
| UsersViews.DestroyUser | users/views.py:179-184 | staff only; an unknown key is "does not exist"; otherwise a hard delete with cascade |
| UsersViews.DestroyAgreesWithEarlierRevision | users/views.py:179-184 | destroy equals the earlier revision's for every actor and key |
| UsersViews.CreateUser | users/views.py:186-190 | only staff can create users |
| UsersViews.InviteUsers | users/views.py:55-59 | only staff can invite |
| UsersViews.InvitedCannotLogin | users/serializers.py:108-117 | an invited user cannot log in with its stripped email and any password |
| UsersViews.InvitedRowLocked | users/serializers.py:112-116 | the row an invitation inserts for an email is the one that email selects, and login with it is "not found" |
| UsersViews.InactiveOwnerLocked | users/serializers.py:46-49 | with unique emails, the inactive owner of an email is "not found" whatever the password |
| UsersViews.InvitedBy | users/views.py:66-70 | the token must be found by the manager, and its user must exist; both failures are "not found" |
| UsersViews.AcceptForm | users/views.py:79-80 | an absent or empty email is replaced by the invited user's email (a whitespace-only one is kept); every other field is kept |
| UsersViews.AcceptInviteAsWritten | users/views.py:74-94 | never succeeds; a request that validates fails at save because `update` returned nothing |
| UsersViews.AcceptInvite | users/views.py:74-94 | with the token found and the form valid (non-blank stripped email held by no other user, valid password and profile, existing company), only the token changes: it is consumed at `now` |
| UsersViews.AcceptInviteNeverCompletes | users/serializers.py:132-133 | every accept the corrected view completes fails as written, and the token stays retrievable |
| UsersViews.AcceptInviteIsSingleUse | users/views.py:86-89 | an accepted token cannot be accepted again at the same or any later time, with any form |
| CompaniesViews.ListCompanies | companies/views.py:17-30 | non-staff get only their own company, or an error without one; staff get every company, nested as company→users→visible posts when `selection` is given |
| CompaniesViews.SelectionIgnoredForNonStaff | companies/views.py:18-21 | `selection` never changes a non-staff listing |
| CompaniesViews.NestedCoversFlat | companies/views.py:21-27 | the nested listing covers exactly the companies of the flat one |
| CompaniesViews.CompanyPostsAgree | rest_api/views.py:183-185 | the posts a member lists through the company filter of a post listing that declares its serializer are exactly those staff see nested under the member's company |
| SeedCompanies.Slug | companies/management/commands/create_random_companies.py:21 | the slug is lower-case alphanumeric and no longer than the name |
| SeedCompanies.SlugOfChar | companies/management/commands/create_random_companies.py:21 | a character is kept, lower-cased, iff it is alphanumeric |
| SeedCompanies.SlugOfConcat | companies/management/commands/create_random_companies.py:21 | the slug of a concatenation is the concatenation of the slugs, so the characters keep their order |
| SeedCompanies.SlugIsFixed | companies/management/commands/create_random_companies.py:21 | a lower-case alphanumeric string is its own slug |
| SeedCompanies.SlugIsIdempotent | companies/management/commands/create_random_companies.py:21 | slugging a slug changes nothing |
| SeedCompanies.CompanyUrl | companies/management/commands/create_random_companies.py:22 | the URL starts with `https://www.` and ends with `.com`, with the slug in between |
| SeedCompanies.UrlKeepsSlug | companies/management/commands/create_random_companies.py:22 | the slug can be read back from the URL |
| SeedCompanies.Seeded | companies/management/commands/create_random_companies.py:18-22 | a seeded company has the fake name and date, the URL built from the name's slug and no address |
| SeedCompanies.CreateRandomCompanies | companies/management/commands/create_random_companies.py:17-23 | exactly `total` rows (none when negative), the i-th built from the i-th fake name and date |
| SeedCompanies.BulkCreate | companies/management/commands/create_random_companies.py:25 | the rows are stored under consecutive new keys in order; existing companies and other tables are unchanged |

## Findings

| source | as written | input that shows it | evidently intended | confidence | as-written member | corrected member |
|---|---|---|---|---|---|---|
| users/serializers.py:132-133 | `AcceptInviteSerializer.update` returns nothing, so `serializer.save()` in users/views.py:84 fails. This happens after validation and before the token is consumed. | any request naming a retrievable invite token with a valid form | `update` returns the instance; the token is consumed, so an invite is accepted once | high, not executed | UsersViews.AcceptInviteAsWritten | UsersViews.AcceptInvite |
| rest_api/views.py:197-205 | `destroy` sets `is_deleted` on portal_app's `Post` (portal_app/models.py:67-80), which has no such field, so the save stores nothing yet reports success | a staff DELETE of an existing live post | the post is marked deleted, as the later revision does | high, not executed | RestApiViews.DestroyPostAsWritten | RestApiViews.DestroyPost |
| posts/views.py:11-14 | `PostViewSet` declares no `serializer_class`, so `get_serializer` fails its assertion; the listing calls it at posts/views.py:41 and `ModelViewSet.create` calls it before `perform_create` | a staff GET of the post list; any authenticated POST | the view declares its serializer, as the earlier revision's does (rest_api/views.py:162) | high, not executed | PostsViews.ListPostsAsWritten, PostsViews.CreatePostAsWritten | PostsViews.ListPosts, PostsViews.CreatePost |
| users/models.py:9-17 | `create_user` assigns its default `user_type=None` to the NOT NULL `user_type` column, overriding the field default; the save fails | `create_user("a@b.c", "pw")` on an empty database | a missing role takes the field default, Client (users/models.py:42) | medium, not executed | UserManager.CreateUserAsWritten | UserManager.CreateUser |

## Left out

- **External services.** Mail sending and the Celery tasks (users/tasks.py, rest_api/tasks.py) are side effects outside the store.
- **Tokens in responses.** Access and refresh tokens are not modelled.
- **Signed links.** JWT and base64 decoding are replaced by the decoded contents, passed as an `Option`.
- **Hashing.** Password hashing is the uninterpreted `Hasher`.
- **Response shapes.** Serializer output shapes, Swagger, URL routing and response status codes are not modelled. Listings return sets of primary keys.
- **`LoginView.get`.** rest_api/views.py:31-36 only echoes the request.
- **Generic CRUD.** Retrieve and update of companies and posts run DRF's generic `ModelViewSet` code, which has no project logic.
- **Field formats.** Validation of email, URL and date formats is not modelled. A required field is modelled as present and non-blank once stripped, with its length bound on the stripped value. The earlier `CompanySerializer` passes the `URLValidator` class as a validator, which checks nothing either way.
- **Other field checks.** Stripping uses the characters Python's `str.isspace` accepts. DRF's rejection of null and surrogate characters in character fields is not modelled.
- **Error reporting.** DRF reports every invalid field at once; the model reports one error value per failed request.
- **401 versus 403.** `Requests.Denied` picks between them by authentication alone. It ignores which authenticator ran.
- **Crashes.** A crash (`KeyError`, `AttributeError`, an uncaught `DoesNotExist`) is an `Error` value, not a server error. The one exception is the bulk update's crash on an id with no fetched post: the posts saved before it stay saved, so it is reported in the result's `failure`, together with the partly updated store.
- UserManager.CreateUser: stores the email as given. `normalize_email` lower-cases the domain part, and that is not modelled.
- RestApiSerializers.UpdateUser: validates only the password. The partial update at rest_api/views.py:124-129 validates every submitted field of `UserSerializer`, and the other fields' checks are not modelled.
- RestApiSerializers.CreateUser: does not bound the email length. The serializer field declares no `max_length`, and the database's own column check is not modelled.
- PostsViews.BulkUpdate: an item carries only the writable post fields and always has an `id`. Raw keys outside the serializer's fields, and items without an `id`, are not modelled.
- PostsViews.CreatePost: the authentication check is the earlier revision's `PostPermissions.has_permission` (rest_api/permissions.py:37-44). posts/permissions.py is not part of this model.
- PostsViews.BulkUpdateKeepsAuthors: holds only for items without an author key. The update applies each raw item with `setattr`, so an item carrying `author_id` reassigns the post (and one carrying `author` fails); the model's items cannot carry such keys.
- PostsViews.ListPostsAsWritten: runs no view-level permission check. The view declares `PostPermissions` (posts/views.py:13), but posts/permissions.py is not part of this model. The corrected `PostsViews.ListPosts` follows the earlier revision's `PostPermissions`, which allow every safe request (rest_api/permissions.py:37-44).
- PostsViews.DestroyPost: takes the object-level decision as a parameter and leaves out the view-level check. posts/permissions.py is not part of this model.
- PostsViews.ListPosts: whether `Post.objects` hides soft-deleted posts is the parameter `hidesDeleted`. posts/managers.py is not part of this model. The same parameter appears in `CompaniesViews.ListCompanies`, where it covers the related manager used by the nested listing.
- **Invite token model.** users/models.py declares no `InviteToken` class, yet users/views.py:23 imports one from it, so users/views.py fails to import as written. The `UsersViews` members model the views as if that import succeeded. The token row's fields (value, user, status, creation and expiry times) are inferred from users/managers.py and the views.
- Models.DeleteUser: deletes the user's invite tokens with the user. No token class declares that foreign key, so this cascade is an assumption, not code.
- InviteTokens.GetByValue: assumes `InviteToken.objects` is the `InviteTokenManager` of users/managers.py, so only retrievable tokens are found. The token class that would declare it is not part of this model.
- UsersViews.AcceptInvite: validates email, password, profile bounds and company. The other submitted user fields (`is_active`, `invite_accepted`, `user_type`) are checked only by their types.
- UsersViews.ConfirmResetPassword: stores the `password` claim verbatim, as the code does. Whether the claim carries an encoded hash depends on the unshown code that issues the link.
- SeedCompanies.Slug: lower-casing and `isalnum` cover ASCII only. Python's Unicode case mapping and character classes are not modelled.
- UsersSerializers.AdminRegister: stores the company url whatever its length. The nested serializer's `url` field declares no `max_length` (companies/serializers.py:9), so an over-long url reaches the 150-character column (companies/models.py:8) unchecked, and the database's own rejection is not modelled. The stored company fits its columns exactly when the url does.
- **Column bounds at insert.** The seeding command's bulk insert does not check column bounds, and the database's own checks are not modelled.

=== FILE: accounts.dfy ===
/** The account rules the login, password-reset and activation endpoints of
    both revisions share: the user an email selects, the checks a login
    makes and the single-row writes those endpoints perform. */
module Accounts {
  import opened Outcomes
  import opened Models
  import opened Fields
  import Tables

  /** `User.objects.filter(email=email).first()`: the matching row with the
      smallest key, or none. */
  function FirstByEmail(users: map<nat, User>, email: string): (r: Option<nat>)
    ensures r.None? <==> !EmailUsed(users, email)
    ensures r.Some? ==> r.value in users && users[r.value].email == email
    ensures r.Some? ==> forall id :: id in users && users[id].email == email ==> r.value <= id
  {
    var matches := set id | id in users && users[id].email == email;
    assert forall id :: id in users && users[id].email == email ==> id in matches;
    if matches == {} then None else Some(Tables.MinKey(matches))
  }

  /** With unique emails, the user an email selects is the one holding it. */
  lemma FirstByEmailFindsOwner(users: map<nat, User>, id: nat)
    requires EmailsUnique(users) && id in users
    ensures FirstByEmail(users, users[id].email) == Some(id)
  {
  }

  /** Only the email column decides which row an email selects. */
  lemma {:induction false} FirstByEmailSeesOnlyEmails(a: map<nat, User>, b: map<nat, User>, email: string)
    requires a.Keys == b.Keys
    requires forall id :: id in a ==> a[id].email == b[id].email
    ensures FirstByEmail(a, email) == FirstByEmail(b, email)
  {
    var ma := set id | id in a && a[id].email == email;
    var mb := set id | id in b && b[id].email == email;
    assert ma == mb;
  }

  /** Which user a login names, and whether it may log in: the user is
      looked up first, an absent or inactive user is reported before the
      password is checked. */
  function Authenticate(users: map<nat, User>, email: string, password: string, h: Hasher): (r: Result<nat>)
    ensures r.Ok? ==> FirstByEmail(users, email) == Some(r.value)
    ensures r.Ok? <==> (FirstByEmail(users, email).Some?
      && users[FirstByEmail(users, email).value].isActive
      && h.check(password, users[FirstByEmail(users, email).value].password))
    ensures r == Err(UserNotFound) <==> (FirstByEmail(users, email).None?
      || !users[FirstByEmail(users, email).value].isActive)
    ensures r.Err? ==> r.error == UserNotFound || r.error == IncorrectPassword
  {
    match FirstByEmail(users, email)
    case None => Err(UserNotFound)
    case Some(id) =>
      if !users[id].isActive then Err(UserNotFound)
      else if !h.check(password, users[id].password) then Err(IncorrectPassword)
      else Ok(id)
  }

  /** `user.save()` of a changed row. */
  function Put(s: Store, id: nat, u: User): (r: Store)
    requires id in s.users
    ensures r.users.Keys == s.users.Keys && r.users[id] == u
    ensures forall other :: other in s.users && other != id ==> r.users[other] == s.users[other]
    ensures r.companies == s.companies && r.posts == s.posts && r.tokens == s.tokens
  {
    s.(users := s.users[id := u])
  }

  /** `update_last_login`: only the user's last login changes. */
  function TouchLogin(s: Store, id: nat, now: int): (r: Store)
    requires id in s.users
    ensures r == Put(s, id, s.users[id].(lastLogin := Some(now)))
    ensures r.users.Keys == s.users.Keys && r.users[id].lastLogin == Some(now)
    ensures r.users[id] == s.users[id].(lastLogin := Some(now))
    ensures forall other :: other in s.users && other != id ==> r.users[other] == s.users[other]
    ensures r.companies == s.companies && r.posts == s.posts && r.tokens == s.tokens
  {
    Put(s, id, s.users[id].(lastLogin := Some(now)))
  }

  /** Writes that keep every email keep the user each email selects, and so
      keep the outcome of a login except through the changed row's
      password and active flag. */
  lemma PutKeepsSelection(s: Store, id: nat, u: User, email: string)
    requires id in s.users && u.email == s.users[id].email
    ensures FirstByEmail(Put(s, id, u).users, email) == FirstByEmail(s.users, email)
  {
    FirstByEmailSeesOnlyEmails(Put(s, id, u).users, s.users, email);
  }

  /** The user fields a registration, creation or invite-acceptance request
      may carry; an absent key is `None`. */
  datatype UserForm = UserForm(
    email: Option<string>,
    password: Option<string>,
    firstName: Option<string>,
    lastName: Option<string>,
    phone: Option<string>,
    userType: Option<Role>,
    isActive: Option<bool>,
    company: Option<nat>,
    inviteAccepted: Option<bool>)

  /** The optional profile columns, stripped, within their bounds. */
  predicate ProfileFits(f: UserForm) {
    && Fits(Cleaned(f.firstName), PersonNameMaxLength)
    && Fits(Cleaned(f.lastName), PersonNameMaxLength)
    && Fits(Cleaned(f.phone), PhoneMaxLength)
  }

  /** `User(**validated_data)` followed by `set_password`: the submitted
      columns as the fields pass them on (stripped), the model defaults for
      the rest. */
  function FromForm(f: UserForm, role: Role, h: Hasher): (u: User)
    requires Present(f.password)
    ensures u.email == Trim(f.email.GetOr("")) && u.password == h.make(Trim(f.password.value))
    ensures u.firstName == Cleaned(f.firstName) && u.lastName == Cleaned(f.lastName) && u.phone == Cleaned(f.phone)
    ensures u.userType == role && u.company == f.company
    ensures u.isActive == f.isActive.GetOr(true) && u.inviteAccepted == f.inviteAccepted.GetOr(false)
    ensures !u.isStaff && !u.isSuperuser && u.lastLogin.None?
  {
    NewUser(Trim(f.email.GetOr(""))).(
      password := h.make(Trim(f.password.value)),
      firstName := Cleaned(f.firstName),
      lastName := Cleaned(f.lastName),
      phone := Cleaned(f.phone),
      userType := role,
      isActive := f.isActive.GetOr(true),
      company := f.company,
      inviteAccepted := f.inviteAccepted.GetOr(false))
  }

  /** A new row under the next key; the caller has checked the constraints. */
  function Add(s: Store, u: User): (r: Saved)
    ensures r.id !in s.users && r.store.users == s.users[r.id := u]
    ensures r.store.companies == s.companies && r.store.posts == s.posts && r.store.tokens == s.tokens
  {
    var id := Tables.FreshKey(s.users.Keys);
    Saved(s.(users := s.users[id := u]), id)
  }

  /** A new row whose email nobody holds and whose company exists keeps the
      database constraints. */
  lemma AddPreservesValid(s: Store, u: User)
    requires Valid(s) && !EmailUsed(s.users, u.email)
    requires u.company.None? || u.company.value in s.companies
    ensures Valid(Add(s, u).store)
  {
    var r := Add(s, u);
    var t := r.store;
    forall a, b | a in t.users && b in t.users && t.users[a].email == t.users[b].email
      ensures a == b
    {
      if a != r.id && b != r.id {
        assert s.users[a].email == s.users[b].email;
      }
    }
  }

  /** Rewriting a row with an email no other user holds and an existing
      company, or none, keeps the database constraints. */
  lemma PutPreservesValid(s: Store, id: nat, u: User)
    requires Valid(s) && id in s.users && !EmailUsed(s.users - {id}, u.email)
    requires u.company.None? || u.company.value in s.companies
    ensures Valid(Put(s, id, u))
  {
    var t := Put(s, id, u);
    forall o | o in t.users && o != id
      ensures t.users[o].email != u.email
    {
      assert o in s.users - {id};
    }
    forall a, b | a in t.users && b in t.users && t.users[a].email == t.users[b].email
      ensures a == b
    {
      if a != id && b != id {
        assert s.users[a].email == s.users[b].email;
      }
    }
  }

  /** A new row holding an email nobody used is the row that email selects. */
  lemma NewRowIsSelected(s: Store, u: User)
    requires !EmailUsed(s.users, u.email)
    ensures FirstByEmail(Add(s, u).store.users, u.email) == Some(Add(s, u).id)
  {
    var r := Add(s, u);
    assert r.store.users[r.id].email == u.email;
  }
}

=== FILE: bulk_update.dfy ===
/** `PostListUpdate.update` (posts/serializers.py; the same code is in
    rest_api/serializers.py): the request items are folded into a dictionary
    keyed by post id, then each entry is applied to the fetched post with
    that id. */
module PostListUpdate {
  import opened Outcomes
  import opened Models

  /** The writable fields one request item submits; `text` may be submitted
      as null, and `topic` is the raw choice string. The `id` key is popped
      before the fields are applied. */
  datatype PostPatch = PostPatch(title: Option<string>, text: Option<Option<string>>, topic: Option<string>, isDeleted: Option<bool>)

  datatype Item = Item(id: nat, patch: PostPatch)

  /** `child.update(post, data)`: `setattr` of every submitted field, the
      author untouched. An item reaches the update only once validation
      has accepted its topic, so a string outside the choices is never
      applied and leaves the topic as it was. */
  function ApplyPatch(p: Post, d: PostPatch): (q: Post)
    ensures q.author == p.author
    ensures d.title.Some? ==> q.title == d.title.value
    ensures d.title.None? ==> q.title == p.title
    ensures d.text.Some? ==> q.text == d.text.value
    ensures d.text.None? ==> q.text == p.text
    ensures d.topic.Some? && ParseTopic(d.topic.value).Some? ==> TopicValue(q.topic) == d.topic.value
    ensures d.topic.None? || ParseTopic(d.topic.value).None? ==> q.topic == p.topic
    ensures d.isDeleted.Some? ==> q.isDeleted == d.isDeleted.value
    ensures d.isDeleted.None? ==> q.isDeleted == p.isDeleted
  {
    var topic := if d.topic.Some? then ParseTopic(d.topic.value) else None;
    p.(
      title := d.title.GetOr(p.title),
      text := d.text.GetOr(p.text),
      topic := topic.GetOr(p.topic),
      isDeleted := d.isDeleted.GetOr(p.isDeleted))
  }

  function Ids(items: seq<Item>): set<nat> {
    set i | 0 <= i < |items| :: items[i].id
  }

  predicate Distinct(items: seq<Item>) {
    forall i, j :: 0 <= i < j < |items| ==> items[i].id != items[j].id
  }

  /** No item submits `is_deleted`. */
  predicate Unflagged(items: seq<Item>) {
    forall i :: 0 <= i < |items| ==> items[i].patch.isDeleted.None?
  }

  /** The data of the last item that names `id`. */
  function LastPatch(items: seq<Item>, id: nat): PostPatch
    requires id in Ids(items)
  {
    var n := |items| - 1;
    if items[n].id == id then items[n].patch
    else
      assert id in Ids(items[..n]) by {
        var i :| 0 <= i < |items| && items[i].id == id;
        assert i < n && items[..n][i] == items[i];
      }
      LastPatch(items[..n], id)
  }

  /** The position of the first item that names `id`. */
  function FirstIndex(items: seq<Item>, id: nat): (k: nat)
    requires id in Ids(items)
    ensures k < |items| && items[k].id == id
    ensures forall i :: 0 <= i < k ==> items[i].id != id
  {
    if items[0].id == id then 0
    else
      assert id in Ids(items[1..]) by {
        var i :| 0 <= i < |items| && items[i].id == id;
        assert i > 0 && items[1..][i - 1] == items[i];
      }
      1 + FirstIndex(items[1..], id)
  }

  /** `d[id] = data` on a Python dictionary kept as its item sequence: an
      existing key keeps its position and takes the new value, a new key is
      appended. */
  function Put(m: seq<Item>, e: Item): (r: seq<Item>)
    requires Distinct(m)
    ensures Distinct(r)
    ensures Ids(r) == Ids(m) + {e.id}
    ensures e.id in Ids(m) ==> |r| == |m| && forall k :: 0 <= k < |m| ==> r[k] == (if m[k].id == e.id then e else m[k])
    ensures e.id !in Ids(m) ==> r == m + [e]
  {
    if e.id in Ids(m) then
      var r := seq(|m|, k requires 0 <= k < |m| => if m[k].id == e.id then e else m[k]);
      assert forall k :: 0 <= k < |m| ==> r[k].id == m[k].id;
      assert Ids(r) == Ids(m);
      r
    else
      var r := m + [e];
      assert Ids(r) == Ids(m) + {e.id} by {
        assert forall k :: 0 <= k < |m| ==> r[k] == m[k];
        assert r[|m|] == e;
      }
      r
  }

  lemma IdsOfExtension(items: seq<Item>, x: Item)
    ensures Ids(items + [x]) == Ids(items) + {x.id}
  {
    var ext := items + [x];
    assert forall i :: 0 <= i < |items| ==> ext[i] == items[i];
    assert ext[|items|] == x;
  }

  /** Distinct ids: as many ids as entries. */
  lemma {:induction false} DistinctIdsCount(m: seq<Item>)
    requires Distinct(m)
    ensures |Ids(m)| == |m|
    decreases |m|
  {
    if m == [] {
      assert Ids(m) == {};
    } else {
      var rest, x := m[..|m| - 1], m[|m| - 1];
      assert m == rest + [x];
      IdsOfExtension(rest, x);
      assert forall k :: 0 <= k < |rest| ==> rest[k] == m[k];
      DistinctIdsCount(rest);
      forall y | y in Ids(rest)
        ensures y != x.id
      {
        var k :| 0 <= k < |rest| && rest[k].id == y;
        assert m[k].id == y;
      }
    }
  }

  /** The last data for an id is one item's data, so it submits no flag
      when no item does. */
  lemma {:induction false} LastPatchUnflagged(items: seq<Item>, id: nat)
    requires id in Ids(items) && Unflagged(items)
    ensures LastPatch(items, id).isDeleted.None?
  {
    var n := |items| - 1;
    if items[n].id != id {
      var rest := items[..n];
      assert id in Ids(rest) by {
        var i :| 0 <= i < |items| && items[i].id == id;
        assert i < n && rest[i] == items[i];
      }
      assert Unflagged(rest) by {
        forall i | 0 <= i < n
          ensures rest[i].patch.isDeleted.None?
        {
          assert rest[i] == items[i];
        }
      }
      LastPatchUnflagged(rest, id);
    }
  }

  lemma LastPatchOfExtension(items: seq<Item>, x: Item, id: nat)
    requires id in Ids(items) || id == x.id
    ensures id in Ids(items + [x])
    ensures LastPatch(items + [x], id) == if id == x.id then x.patch else LastPatch(items, id)
  {
    IdsOfExtension(items, x);
    assert (items + [x])[..|items|] == items;
  }

  lemma FirstIndexOfExtension(items: seq<Item>, x: Item, id: nat)
    requires id in Ids(items)
    ensures id in Ids(items + [x]) && FirstIndex(items + [x], id) == FirstIndex(items, id)
  {
    IdsOfExtension(items, x);
    var k := FirstIndex(items, id);
    assert (items + [x])[k] == items[k];
  }

  lemma FirstIndexOfNewKey(items: seq<Item>, x: Item)
    requires x.id !in Ids(items)
    ensures x.id in Ids(items + [x]) && FirstIndex(items + [x], x.id) == |items|
  {
    IdsOfExtension(items, x);
    assert (items + [x])[|items|] == x;
  }

  /** What `DataMapping` promises of the entries it built from `items`. */
  predicate IsMappingOf(m: seq<Item>, items: seq<Item>) {
    && Distinct(m)
    && Ids(m) == Ids(items)
    && (forall k :: 0 <= k < |m| ==> m[k].id in Ids(items) && m[k].patch == LastPatch(items, m[k].id))
    && (forall k, l :: 0 <= k < l < |m| ==>
         m[k].id in Ids(items) && m[l].id in Ids(items) && FirstIndex(items, m[k].id) < FirstIndex(items, m[l].id))
  }

  /** Folding one more item into the dictionary keeps it the mapping of the
      longer request. */
  lemma {:induction false} PutExtendsMapping(before: seq<Item>, prefix: seq<Item>, x: Item)
    requires IsMappingOf(before, prefix)
    ensures IsMappingOf(Put(before, x), prefix + [x])
  {
    var items := prefix + [x];
    var m := Put(before, x);
    IdsOfExtension(prefix, x);
    forall k | 0 <= k < |m|
      ensures m[k].id in Ids(items) && m[k].patch == LastPatch(items, m[k].id)
    {
      if m[k].id != x.id {
        assert m[k] == before[k];
      }
      LastPatchOfExtension(prefix, x, m[k].id);
    }
    forall k, l | 0 <= k < l < |m|
      ensures m[k].id in Ids(items) && m[l].id in Ids(items) && FirstIndex(items, m[k].id) < FirstIndex(items, m[l].id)
    {
      if x.id in Ids(before) {
        assert m[k].id == before[k].id && m[l].id == before[l].id;
        FirstIndexOfExtension(prefix, x, m[k].id);
        FirstIndexOfExtension(prefix, x, m[l].id);
      } else if l < |before| {
        assert m[k] == before[k] && m[l] == before[l];
        FirstIndexOfExtension(prefix, x, m[k].id);
        FirstIndexOfExtension(prefix, x, m[l].id);
      } else {
        assert m[k] == before[k] && m[l] == x;
        FirstIndexOfExtension(prefix, x, m[k].id);
        FirstIndexOfNewKey(prefix, x);
      }
    }
  }

  /** `{data.pop('id'): data for data in initial_data}`: one entry per
      distinct id, in order of first occurrence, holding the last item's
      data for that id. */
  function DataMapping(items: seq<Item>): (m: seq<Item>)
    ensures Distinct(m)
    ensures Ids(m) == Ids(items)
    ensures forall k :: 0 <= k < |m| ==> m[k].id in Ids(items) && m[k].patch == LastPatch(items, m[k].id)
    ensures forall k, l :: 0 <= k < l < |m| ==>
      m[k].id in Ids(items) && m[l].id in Ids(items) && FirstIndex(items, m[k].id) < FirstIndex(items, m[l].id)
  {
    if items == [] then []
    else
      var n := |items| - 1;
      assert items == items[..n] + [items[n]];
      var before := DataMapping(items[..n]);
      PutExtendsMapping(before, items[..n], items[n]);
      Put(before, items[n])
  }

  /** The posts after the loop, the updated posts in the order they were
      updated, and the error that stopped the loop, if any. Writes made
      before the error stay saved. */
  datatype Outcome = Outcome(posts: map<nat, Post>, updated: seq<Post>, failure: Option<Error>)

  /** The loop over the dictionary: each entry is applied to the fetched
      post with its id and saved; an id with no fetched post hands `None` to
      `child.update`, which fails. */
  function ApplyAll(posts: map<nat, Post>, fetched: map<nat, Post>, mapping: seq<Item>): (o: Outcome)
    requires fetched.Keys <= posts.Keys
    ensures o.posts.Keys == posts.Keys
    ensures |o.updated| <= |mapping|
    ensures o.failure.None? ==> |o.updated| == |mapping|
    ensures o.failure.Some? ==> |o.updated| < |mapping|
    decreases |mapping|
  {
    if mapping == [] then Outcome(posts, [], None)
    else
      var e := mapping[0];
      if e.id !in fetched then Outcome(posts, [], Some(MissingPost(e.id)))
      else
        var p := ApplyPatch(fetched[e.id], e.patch);
        var rest := ApplyAll(posts[e.id := p], fetched, mapping[1..]);
        Outcome(rest.posts, [p] + rest.updated, rest.failure)
  }

  /** Posts the request does not name keep their rows. */
  lemma {:induction false} ApplyAllFrame(posts: map<nat, Post>, fetched: map<nat, Post>, mapping: seq<Item>)
    requires fetched.Keys <= posts.Keys
    ensures var o := ApplyAll(posts, fetched, mapping);
      forall id :: id in posts && id !in Ids(mapping) ==> o.posts[id] == posts[id]
    decreases |mapping|
  {
    if mapping != [] && mapping[0].id in fetched {
      var e := mapping[0];
      var p := ApplyPatch(fetched[e.id], e.patch);
      ApplyAllFrame(posts[e.id := p], fetched, mapping[1..]);
      assert forall id :: id in Ids(mapping[1..]) ==> id in Ids(mapping) by {
        assert forall k :: 1 <= k < |mapping| ==> mapping[1..][k - 1] == mapping[k];
      }
    }
  }

  /** The loop writes only patched copies of fetched posts, and a patch
      never sets the author, so authors are kept. */
  lemma {:induction false} ApplyAllKeepsAuthors(posts: map<nat, Post>, fetched: map<nat, Post>, mapping: seq<Item>)
    requires fetched.Keys <= posts.Keys
    requires forall id :: id in fetched ==> fetched[id].author == posts[id].author
    ensures var o := ApplyAll(posts, fetched, mapping);
      forall id :: id in posts ==> o.posts[id].author == posts[id].author
    decreases |mapping|
  {
    if mapping != [] && mapping[0].id in fetched {
      var e := mapping[0];
      ApplyAllKeepsAuthors(posts[e.id := ApplyPatch(fetched[e.id], e.patch)], fetched, mapping[1..]);
    }
  }

  /** Entries that submit no flag leave every deletion flag as stored. */
  lemma {:induction false} ApplyAllKeepsFlags(posts: map<nat, Post>, fetched: map<nat, Post>, mapping: seq<Item>)
    requires fetched.Keys <= posts.Keys
    requires forall id :: id in fetched ==> fetched[id].isDeleted == posts[id].isDeleted
    requires Unflagged(mapping)
    ensures var o := ApplyAll(posts, fetched, mapping);
      forall id :: id in posts ==> o.posts[id].isDeleted == posts[id].isDeleted
    decreases |mapping|
  {
    if mapping != [] && mapping[0].id in fetched {
      var e := mapping[0];
      assert Unflagged(mapping[1..]) by {
        assert forall k :: 1 <= k < |mapping| ==> mapping[1..][k - 1] == mapping[k];
      }
      ApplyAllKeepsFlags(posts[e.id := ApplyPatch(fetched[e.id], e.patch)], fetched, mapping[1..]);
    }
  }

  /** The loop stops exactly at the first entry without a fetched post. */
  lemma {:induction false} ApplyAllStopsAtMissing(posts: map<nat, Post>, fetched: map<nat, Post>, mapping: seq<Item>)
    requires fetched.Keys <= posts.Keys
    ensures var o := ApplyAll(posts, fetched, mapping);
      && (forall k :: 0 <= k < |o.updated| ==> mapping[k].id in fetched)
      && (o.failure.None? <==> forall k :: 0 <= k < |mapping| ==> mapping[k].id in fetched)
      && (o.failure.Some? ==> mapping[|o.updated|].id !in fetched && o.failure == Some(MissingPost(mapping[|o.updated|].id)))
    decreases |mapping|
  {
    if mapping != [] && mapping[0].id in fetched {
      var e := mapping[0];
      var p := ApplyPatch(fetched[e.id], e.patch);
      ApplyAllStopsAtMissing(posts[e.id := p], fetched, mapping[1..]);
      assert forall k :: 1 <= k < |mapping| ==> mapping[1..][k - 1] == mapping[k];
    }
  }

  /** Each entry the loop got to is the fetched post with the entry's data
      applied, and with distinct ids it is also what ends up stored. */
  lemma {:induction false} ApplyAllUpdates(posts: map<nat, Post>, fetched: map<nat, Post>, mapping: seq<Item>)
    requires fetched.Keys <= posts.Keys
    requires Distinct(mapping)
    ensures var o := ApplyAll(posts, fetched, mapping);
      forall k :: 0 <= k < |o.updated| ==>
        && mapping[k].id in fetched
        && o.updated[k] == ApplyPatch(fetched[mapping[k].id], mapping[k].patch)
        && o.posts[mapping[k].id] == o.updated[k]
    decreases |mapping|
  {
    if mapping != [] && mapping[0].id in fetched {
      var e := mapping[0];
      var p := ApplyPatch(fetched[e.id], e.patch);
      var tail := mapping[1..];
      assert forall k :: 1 <= k < |mapping| ==> tail[k - 1] == mapping[k];
      assert Distinct(tail);
      ApplyAllUpdates(posts[e.id := p], fetched, tail);
      ApplyAllFrame(posts[e.id := p], fetched, tail);
      assert e.id !in Ids(tail);
    }
  }

  /** When the loop stops early, the entries it did not reach leave their
      posts as they were; the earlier writes stay saved. */
  lemma {:induction false} ApplyAllLeavesRest(posts: map<nat, Post>, fetched: map<nat, Post>, mapping: seq<Item>)
    requires fetched.Keys <= posts.Keys
    requires Distinct(mapping)
    ensures var o := ApplyAll(posts, fetched, mapping);
      forall k :: |o.updated| <= k < |mapping| && mapping[k].id in posts ==> o.posts[mapping[k].id] == posts[mapping[k].id]
    decreases |mapping|
  {
    if mapping != [] && mapping[0].id in fetched {
      var e := mapping[0];
      var p := ApplyPatch(fetched[e.id], e.patch);
      var tail := mapping[1..];
      assert forall k :: 1 <= k < |mapping| ==> tail[k - 1] == mapping[k];
      assert Distinct(tail);
      ApplyAllLeavesRest(posts[e.id := p], fetched, tail);
    }
  }
}

=== FILE: companies.dfy ===
/** `CompanyViewSet.list` (companies/views.py; the earlier revision in
    rest_api/views.py is the same code, over posts without a soft-delete
    manager). */
module CompaniesViews {
  import opened Outcomes
  import opened Models
  import opened Requests
  import PostsViews
  import opened Fields

  /** A flat list of companies, or the nested form: each company with its
      users, and each user with their posts. */
  datatype Listing = Flat(ids: set<nat>) | Nested(groups: map<nat, map<nat, set<nat>>>)

  /** The users of company `c`. */
  function Members(s: Store, c: nat): (r: set<nat>)
    ensures forall u :: u in r <==> u in s.users && s.users[u].company == Some(c)
  {
    set u | u in s.users && s.users[u].company == Some(c)
  }

  /** The posts of user `u` the related manager yields. */
  function PostsOf(s: Store, u: nat, hidesDeleted: bool): (r: set<nat>)
    ensures forall p :: p in r <==> p in Objects(s.posts, hidesDeleted) && s.posts[p].author == u
  {
    var rows := Objects(s.posts, hidesDeleted);
    set p | p in rows && rows[p].author == u
  }

  /** Staff list every company, nested when a non-empty `selection` is
      given; anyone else gets only their own company, which must exist on
      the actor (the anonymous user has none). */
  function ListCompanies(s: Store, a: Actor, selection: Option<string>, hidesDeleted: bool): (r: Result<Listing>)
    ensures !IsStaff(a) && (a.Anonymous? || a.user.company.None?) ==> r == Err(NoCompany)
    ensures !IsStaff(a) && a.Authenticated? && a.user.company.Some? ==>
      (r.Ok? && r.value.Flat? && r.value.ids <= {a.user.company.value}
      && (a.user.company.value in r.value.ids <==> a.user.company.value in s.companies))
    ensures IsStaff(a) && !Given(selection) ==> r == Ok(Flat(s.companies.Keys))
    ensures IsStaff(a) && Given(selection) ==> (r.Ok? && r.value.Nested?
      && r.value.groups.Keys == s.companies.Keys
      && (forall c :: c in r.value.groups ==> r.value.groups[c].Keys == Members(s, c))
      && (forall c, u :: c in r.value.groups && u in r.value.groups[c] ==> r.value.groups[c][u] == PostsOf(s, u, hidesDeleted)))
  {
    if !IsStaff(a) then
      if a.Anonymous? || a.user.company.None? then Err(NoCompany)
      else Ok(Flat(set c | c in s.companies && c == a.user.company.value))
    else if Given(selection) then
      Ok(Nested(map c | c in s.companies :: map u | u in Members(s, c) :: PostsOf(s, u, hidesDeleted)))
    else Ok(Flat(s.companies.Keys))
  }

  /** `selection` is ignored for non-staff actors. */
  lemma SelectionIgnoredForNonStaff(s: Store, a: Actor, sel1: Option<string>, sel2: Option<string>, hidesDeleted: bool)
    requires !IsStaff(a)
    ensures ListCompanies(s, a, sel1, hidesDeleted) == ListCompanies(s, a, sel2, hidesDeleted)
  {
  }

  /** The nested listing covers exactly the companies of the flat one. */
  lemma NestedCoversFlat(s: Store, a: Actor, selection: Option<string>, hidesDeleted: bool)
    requires IsStaff(a) && Given(selection)
    ensures ListCompanies(s, a, selection, hidesDeleted).value.groups.Keys ==
      ListCompanies(s, a, None, hidesDeleted).value.ids
  {
  }

  /** The posts a member sees through the company filter of a post listing
      that declares its serializer are exactly the posts staff see nested
      under that company. */
  lemma CompanyPostsAgree(s: Store, staff: Actor, member: Actor, q: PostsViews.PostQuery, selection: Option<string>, hidesDeleted: bool)
    requires IsStaff(staff) && Given(selection)
    requires !IsStaff(member) && member.Authenticated? && member.user.company.Some?
    requires member.user.company.value in s.companies
    requires Given(q.company)
    ensures var c := member.user.company.value;
      var groups := ListCompanies(s, staff, selection, hidesDeleted).value.groups;
      forall p :: p in PostsViews.ListPosts(s, member, q, hidesDeleted).value <==>
        exists u :: u in groups[c] && p in groups[c][u]
  {
    var c := member.user.company.value;
    var groups := ListCompanies(s, staff, selection, hidesDeleted).value.groups;
    var listed := PostsViews.ListPosts(s, member, q, hidesDeleted).value;
    forall p | p in listed
      ensures exists u :: u in groups[c] && p in groups[c][u]
    {
      var u := s.posts[p].author;
      assert u in Members(s, c);
      assert p in PostsOf(s, u, hidesDeleted);
    }
  }
}

/** The `create_random_companies` management command
    (companies/management/commands/create_random_companies.py). The fake
    data generator is a pair of parameters giving the name and date of the
    `i`-th company. */
module SeedCompanies {
  import opened Outcomes
  import opened Models
  import Tables

  predicate IsUpper(c: char) {
    'A' <= c <= 'Z'
  }

  /** `str.lower` on ASCII letters. */
  function Lower(c: char): (r: char)
    ensures !IsUpper(r)
    ensures !IsUpper(c) ==> r == c
  {
    if IsUpper(c) then (c as int + 32) as char else c
  }

  /** `str.isalnum` on ASCII. */
  predicate IsAlnum(c: char) {
    'a' <= c <= 'z' || 'A' <= c <= 'Z' || '0' <= c <= '9'
  }

  /** The alphanumeric characters of the lower-cased name, in order. */
  function Slug(name: string): (r: string)
    ensures |r| <= |name|
    ensures forall i :: 0 <= i < |r| ==> IsAlnum(r[i]) && !IsUpper(r[i])
  {
    if name == [] then []
    else
      var c := Lower(name[0]);
      (if IsAlnum(c) then [c] else []) + Slug(name[1..])
  }

  /** The slug of a single character: kept lower-cased when alphanumeric,
      dropped otherwise. */
  lemma SlugOfChar(c: char)
    ensures Slug([c]) == if IsAlnum(Lower(c)) then [Lower(c)] else []
  {
    assert [c][1..] == [];
  }

  /** The slug of a concatenation is the concatenation of the slugs: with
      `SlugOfChar` this fixes the slug of every name. */
  lemma {:induction false} SlugOfConcat(a: string, b: string)
    ensures Slug(a + b) == Slug(a) + Slug(b)
    decreases |a|
  {
    if a != [] {
      var head := if IsAlnum(Lower(a[0])) then [Lower(a[0])] else [];
      assert (a + b)[0] == a[0];
      assert (a + b)[1..] == a[1..] + b;
      assert Slug(a + b) == head + Slug(a[1..] + b);
      assert Slug(a) == head + Slug(a[1..]);
      SlugOfConcat(a[1..], b);
    } else {
      assert a + b == b;
    }
  }

  /** Slugging a slug changes nothing. */
  lemma {:induction false} SlugIsIdempotent(name: string)
    ensures Slug(Slug(name)) == Slug(name)
  {
    SlugIsFixed(Slug(name));
  }

  /** A lower-case alphanumeric string is its own slug. */
  lemma {:induction false} SlugIsFixed(s: string)
    requires forall i :: 0 <= i < |s| ==> IsAlnum(s[i]) && !IsUpper(s[i])
    ensures Slug(s) == s
    decreases |s|
  {
    if s != [] {
      SlugIsFixed(s[1..]);
      assert [s[0]] + s[1..] == s;
    }
  }

  const UrlPrefix := "https://www."
  const UrlSuffix := ".com"

  /** `f'https://www.{name}.com'`. */
  function CompanyUrl(slug: string): (u: string)
    ensures |u| == |UrlPrefix| + |slug| + |UrlSuffix|
    ensures u[..|UrlPrefix|] == UrlPrefix && u[|u| - |UrlSuffix|..] == UrlSuffix
  {
    UrlPrefix + slug + UrlSuffix
  }

  /** The slug a company url was built from. */
  function UrlSlug(u: string): string
    requires |u| >= |UrlPrefix| + |UrlSuffix|
  {
    u[|UrlPrefix|..|u| - |UrlSuffix|]
  }

  /** The slug can be read back from the url. */
  lemma UrlKeepsSlug(slug: string)
    ensures UrlSlug(CompanyUrl(slug)) == slug
  {
  }

  /** The company the command builds from the `i`-th fake name and date. */
  function Seeded(name: string, date: string): (c: Company)
    ensures c.name == name && c.dateCreated == date && c.address.None?
    ensures c.url == Some(CompanyUrl(Slug(name)))
  {
    Company(name, Some(CompanyUrl(Slug(name))), None, date)
  }

  /** The rows `Command.handle` builds: `total` companies (none for a
      negative count, as `range` gives), each with its url set. */
  method CreateRandomCompanies(total: int, fakeName: nat -> string, fakeDate: nat -> string) returns (rows: seq<Company>)
    ensures |rows| == if total > 0 then total else 0
    ensures forall i :: 0 <= i < |rows| ==> rows[i] == Seeded(fakeName(i), fakeDate(i))
  {
    rows := [];
    var i: nat := 0;
    while i < total
      invariant i <= (if total > 0 then total else 0)
      invariant |rows| == i
      invariant forall k :: 0 <= k < i ==> rows[k] == Seeded(fakeName(k), fakeDate(k))
    {
      rows := rows + [Seeded(fakeName(i), fakeDate(i))];
      i := i + 1;
    }
  }

  /** `Company.objects.bulk_create(companies)`: the rows under consecutive
      new keys, every existing row kept. */
  function BulkCreate(s: Store, rows: seq<Company>): (t: Store)
    ensures t.companies.Keys == s.companies.Keys + Tables.KeyRange(Tables.FreshKey(s.companies.Keys), |rows|)
    ensures forall c :: c in s.companies ==> t.companies[c] == s.companies[c]
    ensures forall i :: 0 <= i < |rows| ==> t.companies[Tables.FreshKey(s.companies.Keys) + i] == rows[i]
    ensures t.users == s.users && t.posts == s.posts && t.tokens == s.tokens
  {
    s.(companies := Tables.InsertAll(s.companies, rows, Tables.FreshKey(s.companies.Keys)))
  }
}

=== FILE: fields.dfy ===
/** DRF's character fields (`CharField` and `EmailField`), which every
    serializer of both revisions uses for text: with `trim_whitespace` on,
    the default, surrounding whitespace is stripped before the value is
    checked or passed on; a value that strips to nothing is blank; and
    `max_length` bounds the stripped value. */
module Fields {
  import opened Outcomes

  /** The characters Python's `str.strip()` removes: those `str.isspace`
      accepts. */
  predicate IsSpace(c: char) {
    || c == ' ' || ('\t' <= c <= '\r') || ('\U{1c}' <= c <= '\U{1f}')
    || c == '\U{85}' || c == '\U{a0}' || c == '\U{1680}'
    || ('\U{2000}' <= c <= '\U{200a}') || c == '\U{2028}' || c == '\U{2029}'
    || c == '\U{202f}' || c == '\U{205f}' || c == '\U{3000}'
  }

  /** Every character of `s` is whitespace. */
  predicate Blank(s: string) {
    forall k :: 0 <= k < |s| ==> IsSpace(s[k])
  }

  /** `lstrip()`: the longest suffix that does not start with whitespace,
      after dropping only whitespace. */
  function TrimStart(s: string): (r: string)
    ensures |r| <= |s| && r == s[|s| - |r|..]
    ensures Blank(s[..|s| - |r|])
    ensures r == [] || !IsSpace(r[0])
  {
    if s != [] && IsSpace(s[0]) then
      var r := TrimStart(s[1..]);
      LeadingSpace(s, r);
      r
    else s
  }

  /** `rstrip()`: the longest prefix that does not end with whitespace,
      after dropping only whitespace. */
  function TrimEnd(s: string): (r: string)
    ensures |r| <= |s| && r == s[..|r|]
    ensures Blank(s[|r|..])
    ensures r == [] || !IsSpace(r[|r| - 1])
  {
    if s != [] && IsSpace(s[|s| - 1]) then
      var r := TrimEnd(s[..|s| - 1]);
      TrailingSpace(s, r);
      r
    else s
  }

  /** One more whitespace character in front keeps a suffix with only
      whitespace before it. */
  lemma LeadingSpace(s: string, r: string)
    requires s != [] && IsSpace(s[0])
    requires |r| <= |s| - 1 && r == s[1..][|s| - 1 - |r|..] && Blank(s[1..][..|s| - 1 - |r|])
    ensures r == s[|s| - |r|..] && Blank(s[..|s| - |r|])
  {
    var n := |s| - |r|;
    assert s[1..][..n - 1] == s[1..n];
    forall k | 0 <= k < n
      ensures IsSpace(s[..n][k])
    {
      if k > 0 {
        assert s[..n][k] == s[1..][..n - 1][k - 1];
      }
    }
  }

  /** One more whitespace character behind keeps a prefix with only
      whitespace after it. */
  lemma TrailingSpace(s: string, r: string)
    requires s != [] && IsSpace(s[|s| - 1])
    requires |r| <= |s| - 1 && r == s[..|s| - 1][..|r|] && Blank(s[..|s| - 1][|r|..])
    ensures r == s[..|r|] && Blank(s[|r|..])
  {
    var n := |r|;
    forall k | 0 <= k < |s| - n
      ensures IsSpace(s[n..][k])
    {
      if k < |s| - 1 - n {
        assert s[n..][k] == s[..|s| - 1][n..][k];
      }
    }
  }

  /** `r` is the slice of `s` starting at `i`, with only whitespace on
      either side of it. */
  predicate Strips(s: string, i: int, r: string) {
    0 <= i <= |s| - |r| && r == s[i..i + |r|] && Blank(s[..i]) && Blank(s[i + |r|..])
  }

  /** `strip()`: `s` with the whitespace at both ends removed. The result
      neither starts nor ends with whitespace, and it is empty exactly when
      `s` is all whitespace; `TrimIsSlice` shows nothing else is removed. */
  function Trim(s: string): (r: string)
    ensures |r| <= |s|
    ensures r == [] || (!IsSpace(r[0]) && !IsSpace(r[|r| - 1]))
    ensures r == [] <==> Blank(s)
  {
    TrimShape(s);
    TrimEnd(TrimStart(s))
  }

  /** Stripping removes only whitespace, and only at the ends: the result is
      a slice of `s` with nothing but whitespace on either side. */
  lemma TrimIsSlice(s: string)
    ensures exists i :: Strips(s, i, Trim(s))
  {
    TrimShape(s);
    assert Trim(s) == TrimEnd(TrimStart(s));
  }

  /** The facts `Trim` promises, from those of its two halves. */
  lemma {:induction false} TrimShape(s: string)
    ensures exists i :: Strips(s, i, TrimEnd(TrimStart(s)))
    ensures var r := TrimEnd(TrimStart(s));
      && (r == [] || (!IsSpace(r[0]) && !IsSpace(r[|r| - 1])))
      && (r == [] <==> Blank(s))
  {
    var t := TrimStart(s);
    var r := TrimEnd(t);
    var i := |s| - |t|;
    assert r == s[i..i + |r|];
    assert s[i + |r|..] == t[|r|..];
    assert Strips(s, i, r);
    if r == [] {
      TrimBlank(s);
    } else {
      assert r[0] == t[0];
      assert !IsSpace(s[i]);
    }
  }

  /** When nothing is left after stripping, everything was whitespace. */
  lemma {:induction false} TrimBlank(s: string)
    requires TrimEnd(TrimStart(s)) == []
    ensures Blank(s)
  {
    var t := TrimStart(s);
    var i := |s| - |t|;
    assert t == [];
    forall k | 0 <= k < |s|
      ensures IsSpace(s[k])
    {
      assert s[k] == s[..i][k];
    }
  }

  /** A string is its own strip exactly when neither end is whitespace. */
  lemma {:induction false} TrimFixesExactly(s: string)
    ensures Trim(s) == s <==> (s == [] || (!IsSpace(s[0]) && !IsSpace(s[|s| - 1])))
  {
    if s == [] || (!IsSpace(s[0]) && !IsSpace(s[|s| - 1])) {
      TrimKeepsUntrimmed(s);
    }
  }

  /** Stripping twice is stripping once. */
  lemma {:induction false} TrimIdempotent(s: string)
    ensures Trim(Trim(s)) == Trim(s)
  {
    var r := Trim(s);
    assert r == [] || (!IsSpace(r[0]) && !IsSpace(r[|r| - 1]));
    TrimKeepsUntrimmed(r);
    assert Trim(r) == r;
  }

  /** A string with no whitespace at either end is left as it is. */
  lemma {:induction false} TrimKeepsUntrimmed(s: string)
    requires s == [] || (!IsSpace(s[0]) && !IsSpace(s[|s| - 1]))
    ensures Trim(s) == s
  {
    if s != [] {
      assert TrimStart(s) == s;
      assert TrimEnd(s) == s;
    }
  }

  /** A value Python treats as true: present and non-empty, before any
      stripping (`if title:`, `if not request.data.get('email')`). */
  predicate Given(v: Option<string>) {
    v.Some? && v.value != ""
  }

  /** A required field's check: present and not blank. */
  predicate Present(v: Option<string>) {
    v.Some? && Trim(v.value) != ""
  }

  /** Present, and at most `n` characters once stripped. */
  predicate Required(v: Option<string>, n: nat) {
    Present(v) && |Trim(v.value)| <= n
  }

  /** The value a field passes on: the stripped string, or nothing when the
      key is absent. */
  function Cleaned(v: Option<string>): Option<string> {
    if v.Some? then Some(Trim(v.value)) else None
  }
}

=== FILE: managers.dfy ===
/** `InviteTokenManager` (users/managers.py): the default manager of invite
    tokens only yields tokens that are active and not yet expired. The clock
    is the parameter `now`. */
module InviteTokens {
  import opened Outcomes
  import opened Models
  import Tables

  predicate Retrievable(t: InviteToken, now: int) {
    t.status && t.expDate > now
  }

  /** The rows the manager's queryset yields at time `now`. */
  function Retrieve(tokens: map<nat, InviteToken>, now: int): (r: map<nat, InviteToken>)
    ensures forall id :: id in r ==> id in tokens && r[id] == tokens[id]
    ensures forall id :: id in tokens && !tokens[id].status ==> id !in r
    ensures forall id :: id in tokens && tokens[id].expDate <= now ==> id !in r
    ensures forall id :: id in tokens && tokens[id].status && tokens[id].expDate > now ==> id in r
  {
    map id | id in tokens && Retrievable(tokens[id], now) :: tokens[id]
  }

  /** Once hidden, a token stays hidden as the clock advances. */
  lemma HiddenStaysHidden(tokens: map<nat, InviteToken>, now: int, later: int)
    requires now <= later
    ensures Retrieve(tokens, later).Keys <= Retrieve(tokens, now).Keys
  {
  }

  /** The retrievable tokens that carry `value`. */
  function MatchingTokens(tokens: map<nat, InviteToken>, value: string, now: int): (m: set<nat>)
    ensures forall id :: id in m <==> id in tokens && tokens[id].value == value && Retrievable(tokens[id], now)
  {
    set id | id in Retrieve(tokens, now) && tokens[id].value == value
  }

  /** `InviteToken.objects.get(value=value)`: exactly one retrievable token
      must carry the value; none is "not found", several are "multiple
      objects returned". */
  function GetByValue(tokens: map<nat, InviteToken>, value: string, now: int): (r: Result<nat>)
    ensures r.Ok? ==> r.value in tokens && tokens[r.value].value == value && Retrievable(tokens[r.value], now)
    ensures r.Ok? ==> forall id :: id in tokens && tokens[id].value == value && Retrievable(tokens[id], now) ==> id == r.value
    ensures r == Err(InviteTokenNotFound) <==>
      forall id :: id in tokens && tokens[id].value == value ==> !Retrievable(tokens[id], now)
    ensures r == Err(MultipleObjects) <==> |MatchingTokens(tokens, value, now)| > 1
    ensures r.Err? ==> r.error == InviteTokenNotFound || r.error == MultipleObjects
  {
    var matches := MatchingTokens(tokens, value, now);
    if matches == {} then
      Err(InviteTokenNotFound)
    else if |matches| > 1 then Err(MultipleObjects)
    else
      var m := Tables.MinKey(matches);
      OnlyMember(matches, m);
      Ok(m)
  }

  /** A set of one element holds nothing else. */
  lemma OnlyMember(s: set<nat>, x: nat)
    requires |s| == 1 && x in s
    ensures forall y :: y in s ==> y == x
  {
    forall y | y in s
      ensures y == x
    {
      if y != x {
        assert {x, y} <= s;
        assert |{x, y}| == 2;
        SubsetCard({x, y}, s);
      }
    }
  }

  lemma SubsetCard(a: set<nat>, b: set<nat>)
    requires a <= b
    ensures |a| <= |b|
  {
    assert b == a + (b - a);
  }

  /** Consuming a token (what accepting an invite does to it) hides it for
      good, whatever the clock says afterwards. */
  function Consume(t: InviteToken, now: int): (r: InviteToken)
    ensures forall later :: !Retrievable(r, later)
    ensures r.value == t.value && r.user == t.user && r.createdAt == t.createdAt
  {
    t.(status := false, expDate := now)
  }
}

/** `CustomUserManager` (users/models.py; the same code is in
    portal_app/models.py). */
module UserManager {
  import opened Outcomes
  import opened Models
  import Tables

  /** The `**extra_fields` the model honours here. */
  datatype ExtraFields = ExtraFields(isStaff: Option<bool>, isSuperuser: Option<bool>, isActive: Option<bool>, company: Option<nat>)

  /** The row `self.model(email=email, **extra_fields)` builds, with its
      password set. */
  function Build(email: string, password: Option<string>, role: Role, extra: ExtraFields, h: Hasher): User {
    NewUser(email).(
      password := EncodePassword(h, password),
      userType := role,
      isStaff := extra.isStaff.GetOr(false),
      isSuperuser := extra.isSuperuser.GetOr(false),
      isActive := extra.isActive.GetOr(true),
      company := extra.company)
  }

  /** `user.save()` of a new row: the unique email and the company foreign
      key are enforced by the database. */
  function Insert(s: Store, u: User): (r: Result<Saved>)
    ensures r.Ok? <==> !EmailUsed(s.users, u.email) && (u.company.None? || u.company.value in s.companies)
    ensures r.Err? ==> r.error == IntegrityError
    ensures r.Ok? ==> r.value.id !in s.users && r.value.store == s.(users := s.users[r.value.id := u])
  {
    if EmailUsed(s.users, u.email) || (u.company.Some? && u.company.value !in s.companies) then Err(IntegrityError)
    else Ok(Saved(s.(users := s.users[Tables.FreshKey(s.users.Keys) := u]), Tables.FreshKey(s.users.Keys)))
  }

  /** `create_user` as written: the default `user_type=None` is stored into
      the NOT NULL `user_type` column, which the database rejects. */
  function CreateUserAsWritten(s: Store, email: Option<string>, password: Option<string>, userType: Option<Role>, extra: ExtraFields, h: Hasher): (r: Result<Saved>)
    ensures email.None? || email.value == "" ==> r == Err(EmailRequired)
    ensures email.Some? && email.value != "" && userType.None? ==> r == Err(IntegrityError)
    ensures userType.Some? ==> r == CreateUser(s, email, password, userType, extra, h)
  {
    if email.None? || email.value == "" then Err(EmailRequired)
    else if userType.None? then Err(IntegrityError)
    else Insert(s, Build(email.value, password, userType.value, extra, h))
  }

  /** `create_user` with a missing role taking the field default: rejects a
      missing or empty email; otherwise stores exactly the given email, role
      and flags and encodes the password. */
  function CreateUser(s: Store, email: Option<string>, password: Option<string>, userType: Option<Role>, extra: ExtraFields, h: Hasher): (r: Result<Saved>)
    ensures r == Err(EmailRequired) <==> email.None? || email.value == ""
    ensures r.Ok? <==> (email.Some? && email.value != "" && !EmailUsed(s.users, email.value)
      && (extra.company.None? || extra.company.value in s.companies))
    ensures r.Ok? ==>
      && r.value.id !in s.users
      && r.value.id in r.value.store.users
      && r.value.store.users.Keys == s.users.Keys + {r.value.id}
      && (forall id :: id in s.users ==> r.value.store.users[id] == s.users[id])
      && r.value.store.companies == s.companies && r.value.store.posts == s.posts && r.value.store.tokens == s.tokens
    ensures r.Ok? ==> var u := r.value.store.users[r.value.id];
      && u.email == email.value
      && u.userType == userType.GetOr(DefaultRole)
      && u.password == EncodePassword(h, password)
      && u.isStaff == extra.isStaff.GetOr(false)
      && u.isSuperuser == extra.isSuperuser.GetOr(false)
      && u.isActive == extra.isActive.GetOr(true)
      && u.company == extra.company
  {
    if email.None? || email.value == "" then Err(EmailRequired)
    else Insert(s, Build(email.value, password, userType.GetOr(DefaultRole), extra, h))
  }

  /** `create_superuser`: the staff, superuser and active flags default to
      true, an explicit staff or superuser flag other than true is rejected
      (before the email is looked at), and the role is always Superuser. */
  function CreateSuperuser(s: Store, email: Option<string>, password: Option<string>, extra: ExtraFields, h: Hasher): (r: Result<Saved>)
    ensures extra.isStaff == Some(false) ==> r == Err(SuperuserNeedsStaff)
    ensures extra.isStaff != Some(false) && extra.isSuperuser == Some(false) ==> r == Err(SuperuserNeedsSuperuser)
    ensures r.Ok? ==> r.value.id in r.value.store.users && var u := r.value.store.users[r.value.id];
      && u.userType == Superuser && u.isStaff && u.isSuperuser
      && u.isActive == extra.isActive.GetOr(true)
    ensures extra.isStaff != Some(false) && extra.isSuperuser != Some(false) ==>
      (r.Ok? <==> (email.Some? && email.value != "" && !EmailUsed(s.users, email.value)
        && (extra.company.None? || extra.company.value in s.companies)))
  {
    var staff := extra.isStaff.GetOr(true);
    var superuser := extra.isSuperuser.GetOr(true);
    var active := extra.isActive.GetOr(true);
    if !staff then Err(SuperuserNeedsStaff)
    else if !superuser then Err(SuperuserNeedsSuperuser)
    else CreateUser(s, email, password, Some(Superuser), extra.(isStaff := Some(staff), isSuperuser := Some(superuser), isActive := Some(active)), h)
  }

  /** The finding: with the default role, every `create_user` call that gets
      past the email check fails, where the corrected manager creates a
      Client. */
  lemma DefaultRoleRejected(h: Hasher)
    ensures var s := Store(map[], map[], map[], map[]);
      var extra := ExtraFields(None, None, None, None);
      && CreateUserAsWritten(s, Some("a@b.c"), Some("pw"), None, extra, h) == Err(IntegrityError)
      && CreateUser(s, Some("a@b.c"), Some("pw"), None, extra, h).Ok?
  {
    var s := Store(map[], map[], map[], map[]);
    assert !EmailUsed(s.users, "a@b.c");
  }

  /** Creating a user keeps the database constraints. */
  lemma CreateUserPreservesValid(s: Store, email: Option<string>, password: Option<string>, userType: Option<Role>, extra: ExtraFields, h: Hasher)
    requires Valid(s)
    ensures var r := CreateUser(s, email, password, userType, extra, h);
      r.Ok? ==> Valid(r.value.store)
  {
    var r := CreateUser(s, email, password, userType, extra, h);
    if r.Ok? {
      var t := r.value.store;
      var id := r.value.id;
      forall a, b | a in t.users && b in t.users && t.users[a].email == t.users[b].email
        ensures a == b
      {
        if a != id && b != id {
          assert s.users[a].email == s.users[b].email;
        }
      }
    }
  }
}

=== FILE: models.dfy ===
/** The portal's records (users, companies, posts, invite tokens), their
    choice fields, column bounds and defaults, the database store holding
    them, and the cascades a delete triggers. Records carry no primary key:
    the store maps each key to its row. */
module Models {
  import opened Outcomes
  import Tables

  /** `User.ROLES`. */
  datatype Role = Superuser | Admin | Client

  const DefaultRole: Role := Client
  const RoleMaxLength := 10

  /** The value stored in the `user_type` column. */
  function RoleValue(r: Role): (v: string)
    ensures 0 < |v| <= RoleMaxLength
  {
    match r
    case Superuser => "Superuser"
    case Admin => "Admin"
    case Client => "Client"
  }

  /** A choice field accepts exactly the stored values of `ROLES`. */
  function ParseRole(s: string): (r: Option<Role>)
    ensures r.Some? ==> RoleValue(r.value) == s
    ensures r.None? ==> forall role: Role :: RoleValue(role) != s
  {
    if s == "Superuser" then Some(Superuser)
    else if s == "Admin" then Some(Admin)
    else if s == "Client" then Some(Client)
    else None
  }

  /** `Post.TOPIC_TYPES`. */
  datatype Topic = Nature | Sport | Art | Travel

  const TopicMaxLength := 6

  /** The value stored in the `topic` column; every choice fits its column. */
  function TopicValue(t: Topic): (v: string)
    ensures 0 < |v| <= TopicMaxLength
  {
    match t
    case Nature => "nature"
    case Sport => "sport"
    case Art => "art"
    case Travel => "travel"
  }

  function ParseTopic(s: string): (r: Option<Topic>)
    ensures r.Some? ==> TopicValue(r.value) == s
    ensures r.None? ==> forall t: Topic :: TopicValue(t) != s
  {
    if s == "nature" then Some(Nature)
    else if s == "sport" then Some(Sport)
    else if s == "art" then Some(Art)
    else if s == "travel" then Some(Travel)
    else None
  }

  /** Column bounds (`max_length`) of the models. */
  const EmailMaxLength := 255
  const PersonNameMaxLength := 255
  const PhoneMaxLength := 24
  const PasswordMaxLength := 128
  const CompanyNameMaxLength := 255
  const UrlMaxLength := 150
  const AddressMaxLength := 500
  const TitleMaxLength := 500
  const TextMaxLength := 1000

  /** A user row. `password` is the encoded string a password hasher produced. */
  datatype User = User(
    email: string,
    password: string,
    firstName: Option<string>,
    lastName: Option<string>,
    phone: Option<string>,
    userType: Role,
    isStaff: bool,
    isSuperuser: bool,
    isActive: bool,
    company: Option<nat>,
    inviteAccepted: bool,
    lastLogin: Option<int>)

  /** `User(email=email)`: every other field at its model default. */
  function NewUser(email: string): User {
    User(email, "", None, None, None, DefaultRole, false, false, true, None, false, None)
  }

  /** The password hasher, left uninterpreted: `make` encodes a raw password
      (`make_password`), `unusable` is what `set_password(None)` stores and
      `check(raw, encoded)` is `check_password`. */
  datatype Hasher = Hasher(make: string -> string, unusable: string, check: (string, string) -> bool)

  /** `set_password`. */
  function EncodePassword(h: Hasher, raw: Option<string>): string {
    match raw
    case Some(p) => h.make(p)
    case None => h.unusable
  }

  /** A write that created or loaded a row: the new store and the row's key. */
  datatype Saved = Saved(store: Store, id: nat)

  datatype Company = Company(name: string, url: Option<string>, address: Option<string>, dateCreated: string)

  /** A post row; `author` is the key of a user. */
  datatype Post = Post(title: string, text: Option<string>, topic: Topic, author: nat, isDeleted: bool)

  /** An invite token row; `user` is the key of the invited user. No
      `InviteToken` class is declared in users/models.py, so these fields
      are the ones the manager and the views use. */
  datatype InviteToken = InviteToken(value: string, createdAt: int, expDate: int, status: bool, user: nat)

  datatype Store = Store(
    users: map<nat, User>,
    companies: map<nat, Company>,
    posts: map<nat, Post>,
    tokens: map<nat, InviteToken>)

  predicate Fits(s: Option<string>, n: nat) {
    s.None? || |s.value| <= n
  }

  predicate UserFits(u: User) {
    && |u.email| <= EmailMaxLength
    && Fits(u.firstName, PersonNameMaxLength)
    && Fits(u.lastName, PersonNameMaxLength)
    && Fits(u.phone, PhoneMaxLength)
  }

  predicate CompanyFits(c: Company) {
    && |c.name| <= CompanyNameMaxLength
    && Fits(c.url, UrlMaxLength)
    && Fits(c.address, AddressMaxLength)
  }

  predicate PostFits(p: Post) {
    |p.title| <= TitleMaxLength && Fits(p.text, TextMaxLength)
  }

  /** `email` is declared `unique=True`. */
  predicate EmailsUnique(users: map<nat, User>) {
    forall a, b :: a in users && b in users && users[a].email == users[b].email ==> a == b
  }

  predicate EmailUsed(users: map<nat, User>, email: string) {
    exists id :: id in users && users[id].email == email
  }

  /** The database's constraints: unique emails and every foreign key
      pointing at an existing row. */
  predicate Valid(s: Store) {
    && EmailsUnique(s.users)
    && (forall p :: p in s.posts ==> s.posts[p].author in s.users)
    && (forall u :: u in s.users && s.users[u].company.Some? ==> s.users[u].company.value in s.companies)
    && (forall t :: t in s.tokens ==> s.tokens[t].user in s.users)
  }

  /** The rows `Post.objects` yields. Its manager class is not part of this
      model, so whether it hides soft-deleted posts is the parameter
      `hidesDeleted`; `Post.all_objects` is the plain manager and yields
      every row (`hidesDeleted == false`). */
  function Objects(posts: map<nat, Post>, hidesDeleted: bool): (r: map<nat, Post>)
    ensures forall id :: id in r ==> id in posts && r[id] == posts[id]
    ensures forall id :: id in posts && !posts[id].isDeleted ==> id in r
    ensures hidesDeleted ==> forall id :: id in r ==> !r[id].isDeleted
    ensures !hidesDeleted ==> r == posts
  {
    if hidesDeleted then map id | id in posts && !posts[id].isDeleted :: posts[id]
    else posts
  }

  /** Deleting a user: the row goes, and so do the user's posts, whose
      `author` key cascades. The user's invite tokens go too: no token class
      declares that key, so this cascade is assumed. */
  function DeleteUser(s: Store, id: nat): (r: Store)
    ensures r.users.Keys == s.users.Keys - {id}
    ensures forall u :: u in r.users ==> r.users[u] == s.users[u]
    ensures forall p :: p in r.posts <==> p in s.posts && s.posts[p].author != id
    ensures forall p :: p in r.posts ==> r.posts[p] == s.posts[p]
    ensures forall t :: t in r.tokens <==> t in s.tokens && s.tokens[t].user != id
    ensures forall t :: t in r.tokens ==> r.tokens[t] == s.tokens[t]
    ensures r.companies == s.companies
  {
    Store(
      s.users - {id},
      s.companies,
      map p | p in s.posts && s.posts[p].author != id :: s.posts[p],
      map t | t in s.tokens && s.tokens[t].user != id :: s.tokens[t])
  }

  /** Deleting a company: the row goes and its users' `company` becomes null. */
  function DeleteCompany(s: Store, id: nat): (r: Store)
    ensures r.companies.Keys == s.companies.Keys - {id}
    ensures forall c :: c in r.companies ==> r.companies[c] == s.companies[c]
    ensures r.users.Keys == s.users.Keys
    ensures forall u :: u in s.users && s.users[u].company == Some(id) ==>
      r.users[u] == s.users[u].(company := None)
    ensures forall u :: u in s.users && s.users[u].company != Some(id) ==> r.users[u] == s.users[u]
    ensures r.posts == s.posts && r.tokens == s.tokens
  {
    Store(
      map u | u in s.users :: if s.users[u].company == Some(id) then s.users[u].(company := None) else s.users[u],
      s.companies - {id},
      s.posts,
      s.tokens)
  }

  lemma DeleteUserPreservesValid(s: Store, id: nat)
    requires Valid(s)
    ensures Valid(DeleteUser(s, id))
  {
  }

  lemma DeleteCompanyPreservesValid(s: Store, id: nat)
    requires Valid(s)
    ensures Valid(DeleteCompany(s, id))
  {
    var r := DeleteCompany(s, id);
    forall a, b | a in r.users && b in r.users && r.users[a].email == r.users[b].email
      ensures a == b
    {
      assert s.users[a].email == r.users[a].email;
      assert s.users[b].email == r.users[b].email;
    }
  }
}

=== FILE: outcomes.dfy ===
/** Failure-compatible wrappers for the model: an optional value and a result
    that carries either a value or one of the errors the portal can raise. */
module Outcomes {

  datatype Option<+T> = None | Some(value: T) {
    function GetOr(default: T): T {
      match this
      case Some(v) => v
      case None => default
    }
  }

  /** The errors the views, serializers and managers raise. Where the source
      lets an exception escape (an HTTP 500), the error names the exception. */
  datatype Error =
    | UserNotFound              // AuthenticationFailed('User not found!')
    | IncorrectPassword         // AuthenticationFailed('The password is incorrect!')
    | EmailRequired             // ValueError('The Email must be set')
    | SuperuserNeedsStaff       // ValueError('Superuser must have is_staff=True.')
    | SuperuserNeedsSuperuser   // ValueError('Superuser must have is_superuser=True.')
    | EmailTaken                // UniqueValidator on `email`
    | InvalidField(field: string)   // a serializer field failed validation (HTTP 400)
    | NotAuthenticated          // permission check failed for an anonymous actor (HTTP 401)
    | PermissionDenied          // permission check failed for an authenticated actor (HTTP 403)
    | NotFound                  // Http404 from a view's object lookup
    | DoesNotExist              // an unhandled Model.DoesNotExist
    | InviteTokenNotFound       // "InviteToken object does not exist or have expired" (HTTP 404)
    | InvalidActivationLink     // "Activation link is invalid!"
    | InvalidToken              // the token could not be decoded
    | MissingKey(key: string)   // KeyError on a request or claim dictionary
    | NoCompany                 // attribute access on a missing `company`
    | UnknownField(field: string)   // FieldError: filter on a field the model lacks
    | MissingPost(id: nat)      // `child.update(None, ...)` in the bulk update
    | IntegrityError            // a database constraint rejected the write
    | MultipleObjects           // MultipleObjectsReturned from `get`
    | UpdateReturnedNone        // the serializer's save() asserts update() returned an instance
    | NoSerializerClass         // get_serializer() asserts the view declares serializer_class

  datatype Result<+T> = Ok(value: T) | Err(error: Error) {
    predicate IsFailure() {
      Err?
    }

    function PropagateFailure<U>(): Result<U>
      requires Err?
    {
      Err(error)
    }

    function Extract(): T
      requires Ok?
    {
      value
    }
  }
}

=== FILE: permissions.dfy ===
/** What a permission class sees of a request: its HTTP method and the actor
    the authentication layer attached to it. */
module Requests {
  import opened Models

  datatype Method = GET | HEAD | OPTIONS | POST | PUT | PATCH | DELETE

  /** `SAFE_METHODS`. */
  predicate IsSafe(m: Method) {
    m == GET || m == HEAD || m == OPTIONS
  }

  predicate IsUpdate(m: Method) {
    m == PATCH || m == PUT
  }

  /** `request.user`: the anonymous user, or a stored user and its key. */
  datatype Actor = Anonymous | Authenticated(id: nat, user: User)

  predicate IsAuthenticated(a: Actor) {
    a.Authenticated?
  }

  /** The anonymous user's `is_staff` is false. */
  predicate IsStaff(a: Actor) {
    a.Authenticated? && a.user.isStaff
  }

  /** `obj == request.user`: model instances are equal when they are of the
      same model and have the same primary key, so only a user object can
      equal the actor. */
  datatype Target = UserTarget(id: nat, user: User) | CompanyTarget(id: nat, company: Company) | PostTarget(id: nat, post: Post)

  predicate IsActor(obj: Target, a: Actor) {
    obj.UserTarget? && a.Authenticated? && obj.id == a.id
  }

  /** The error a failed permission check raises: 401 for the anonymous
      user, 403 otherwise. */
  function Denied(a: Actor): Outcomes.Error {
    if a.Authenticated? then Outcomes.PermissionDenied else Outcomes.NotAuthenticated
  }
}

/** The permission classes of the earlier revision (rest_api/permissions.py). */
module RestApiPermissions {
  import opened Models
  import opened Requests

  /** `IsUserOrIsAdminOrReadSelfOnly.has_permission`: reads are open to
      everyone, updates to any authenticated actor, the rest to staff. */
  function UserHasPermission(m: Method, a: Actor): (r: bool)
    ensures IsSafe(m) ==> r
    ensures !IsAuthenticated(a) ==> (r <==> IsSafe(m))
    ensures IsStaff(a) ==> r
    ensures IsAuthenticated(a) && !IsStaff(a) ==> (r <==> IsSafe(m) || IsUpdate(m))
  {
    if IsSafe(m) then true
    else if m in {PATCH, PUT} then IsAuthenticated(a)
    else IsAuthenticated(a) && IsStaff(a)
  }

  /** `IsUserOrIsAdminOrReadSelfOnly.has_object_permission` on a user object:
      a write is allowed on oneself, or by staff on anyone but a superuser. */
  function UserHasObjectPermission(m: Method, a: Actor, id: nat, obj: User): (r: bool)
    ensures IsSafe(m) ==> r
    ensures !IsSafe(m) && obj.isSuperuser ==> (r <==> a.Authenticated? && a.id == id)
    ensures !IsSafe(m) && !IsStaff(a) ==> (r <==> a.Authenticated? && a.id == id)
    ensures IsStaff(a) && !obj.isSuperuser ==> r
  {
    if IsSafe(m) then true
    else IsActor(UserTarget(id, obj), a) || (IsStaff(a) && !obj.isSuperuser)
  }

  /** `CompanyPermissions.has_permission`: the same table as the user class. */
  function CompanyHasPermission(m: Method, a: Actor): (r: bool)
    ensures IsSafe(m) ==> r
    ensures !IsAuthenticated(a) ==> (r <==> IsSafe(m))
    ensures IsStaff(a) ==> r
    ensures IsAuthenticated(a) && !IsStaff(a) ==> (r <==> IsSafe(m) || IsUpdate(m))
  {
    if IsSafe(m) then true
    else if m in {PATCH, PUT} then IsAuthenticated(a)
    else IsAuthenticated(a) && IsStaff(a)
  }

  /** `CompanyPermissions.has_object_permission`: `obj == request.user` never
      holds for a company, so a write is allowed to staff only. */
  function CompanyHasObjectPermission(m: Method, a: Actor, id: nat, obj: Company): (r: bool)
    ensures IsSafe(m) ==> r
    ensures !IsSafe(m) ==> (r <==> IsStaff(a))
  {
    if IsSafe(m) then true
    else IsActor(CompanyTarget(id, obj), a) || IsStaff(a)
  }

  /** `PostPermissions.has_permission`: like the user class, but any
      authenticated actor may also create. */
  function PostHasPermission(m: Method, a: Actor): (r: bool)
    ensures IsSafe(m) ==> r
    ensures !IsAuthenticated(a) ==> (r <==> IsSafe(m))
    ensures IsStaff(a) ==> r
    ensures IsAuthenticated(a) && !IsStaff(a) ==> (r <==> m != DELETE)
  {
    if IsSafe(m) then true
    else if m in {PATCH, PUT, POST} then IsAuthenticated(a)
    else IsAuthenticated(a) && IsStaff(a)
  }

  /** `PostPermissions.has_object_permission`: the post is compared with the
      actor, not with its author, so a write is allowed to staff only. */
  function PostHasObjectPermission(m: Method, a: Actor, id: nat, obj: Post): (r: bool)
    ensures IsSafe(m) ==> r
    ensures !IsSafe(m) ==> (r <==> IsStaff(a))
  {
    if IsSafe(m) then true
    else IsActor(PostTarget(id, obj), a) || IsStaff(a)
  }

  /** Nobody but a superuser themself may write to a superuser. */
  lemma SuperuserWritableOnlyBySelf(m: Method, a: Actor, id: nat, obj: User)
    requires obj.isSuperuser && !IsSafe(m)
    requires UserHasObjectPermission(m, a, id, obj)
    ensures a.Authenticated? && a.id == id
  {
  }

  /** The author of a post who is not staff may not write to it. */
  lemma AuthorAloneCannotWritePost(m: Method, u: User, id: nat, post: Post, postId: nat)
    requires !IsSafe(m) && !u.isStaff && post.author == id
    ensures !PostHasObjectPermission(m, Authenticated(id, u), postId, post)
  {
  }

  /** Making the actor staff never turns an allow into a deny, at view or
      object level, in any of the three classes. */
  lemma StaffIsMonotone(m: Method, id: nat, u: User, objId: nat, user: User, company: Company, post: Post)
    ensures var staff := Authenticated(id, u.(isStaff := true));
      && (UserHasPermission(m, Authenticated(id, u)) ==> UserHasPermission(m, staff))
      && (UserHasObjectPermission(m, Authenticated(id, u), objId, user) ==> UserHasObjectPermission(m, staff, objId, user))
      && (CompanyHasPermission(m, Authenticated(id, u)) ==> CompanyHasPermission(m, staff))
      && (CompanyHasObjectPermission(m, Authenticated(id, u), objId, company) ==> CompanyHasObjectPermission(m, staff, objId, company))
      && (PostHasPermission(m, Authenticated(id, u)) ==> PostHasPermission(m, staff))
      && (PostHasObjectPermission(m, Authenticated(id, u), objId, post) ==> PostHasObjectPermission(m, staff, objId, post))
  {
  }

  /** Authentication never turns an allow into a deny either. */
  lemma AuthenticationIsMonotone(m: Method, id: nat, u: User)
    ensures UserHasPermission(m, Anonymous) ==> UserHasPermission(m, Authenticated(id, u))
    ensures CompanyHasPermission(m, Anonymous) ==> CompanyHasPermission(m, Authenticated(id, u))
    ensures PostHasPermission(m, Anonymous) ==> PostHasPermission(m, Authenticated(id, u))
  {
  }
}

/** The later revision of the user permission class (users/permissions.py):
    reads need authentication. */
module UsersPermissions {
  import opened Models
  import opened Requests
  import RestApiPermissions

  /** The anonymous user is denied every method; an authenticated actor may
      read and update, staff may do anything. */
  function HasPermission(m: Method, a: Actor): (r: bool)
    ensures !IsAuthenticated(a) ==> !r
    ensures IsStaff(a) ==> r
    ensures IsAuthenticated(a) && !IsStaff(a) ==> (r <==> IsSafe(m) || IsUpdate(m))
  {
    if IsSafe(m) && IsAuthenticated(a) then true
    else if m in {PATCH, PUT} then IsAuthenticated(a)
    else IsAuthenticated(a) && IsStaff(a)
  }

  /** The object-level rule is unchanged from the earlier revision: reads
      are allowed, writes on oneself, or by staff on a non-superuser. */
  function HasObjectPermission(m: Method, a: Actor, id: nat, obj: User): (r: bool)
    ensures IsSafe(m) ==> r
    ensures !IsSafe(m) ==> (r <==> (a.Authenticated? && a.id == id) || (IsStaff(a) && !obj.isSuperuser))
  {
    if IsSafe(m) then true
    else IsActor(UserTarget(id, obj), a) || (IsStaff(a) && !obj.isSuperuser)
  }

  /** The later view-level check is never more permissive than the earlier
      one, and differs from it exactly on anonymous reads. */
  lemma NeverMorePermissive(m: Method, a: Actor)
    ensures HasPermission(m, a) ==> RestApiPermissions.UserHasPermission(m, a)
    ensures HasPermission(m, a) != RestApiPermissions.UserHasPermission(m, a) <==> !IsAuthenticated(a) && IsSafe(m)
  {
  }

  lemma SameObjectRule(m: Method, a: Actor, id: nat, obj: User)
    ensures HasObjectPermission(m, a, id, obj) == RestApiPermissions.UserHasObjectPermission(m, a, id, obj)
  {
  }
}

/** The later revision of the company permission class
    (companies/permissions.py). */
module CompaniesPermissions {
  import opened Models
  import opened Requests
  import RestApiPermissions

  /** Reads are open to everyone; updates need authentication; creating and
      deleting need staff. */
  function HasPermission(m: Method, a: Actor): (r: bool)
    ensures IsSafe(m) ==> r
    ensures IsUpdate(m) ==> (r <==> IsAuthenticated(a))
    ensures m == POST || m == DELETE ==> (r <==> IsStaff(a))
  {
    if IsSafe(m) then true
    else if m in {PATCH, PUT} then IsAuthenticated(a)
    else IsAuthenticated(a) && IsStaff(a)
  }

  /** A write on a company is allowed to staff only. */
  function HasObjectPermission(m: Method, a: Actor, id: nat, obj: Company): (r: bool)
    ensures IsSafe(m) ==> r
    ensures !IsSafe(m) ==> (r <==> IsStaff(a))
  {
    if IsSafe(m) then true
    else IsActor(CompanyTarget(id, obj), a) || IsStaff(a)
  }

  /** The decision table is the earlier revision's, for every input. */
  lemma SameAsEarlierRevision(m: Method, a: Actor, id: nat, obj: Company)
    ensures HasPermission(m, a) == RestApiPermissions.CompanyHasPermission(m, a)
    ensures HasObjectPermission(m, a, id, obj) == RestApiPermissions.CompanyHasObjectPermission(m, a, id, obj)
  {
  }
}

=== FILE: posts_views.dfy ===
/** `PostViewSet` and `PostBulkUpdate` (posts/views.py and, for the
    earlier revision, rest_api/views.py). Both revisions run the same list
    and bulk-update code; the earlier one over a `Post` model without a
    soft-delete manager, i.e. with `hidesDeleted == false`, and its destroy
    is `RestApiViews.DestroyPostAsWritten`. The later `PostViewSet` declares
    no `serializer_class`, so its listing and creation fail wherever they
    ask for one: `ListPostsAsWritten` and `CreatePostAsWritten` model that
    code, `ListPosts` and `CreatePost` the view as it would run with one
    declared, as the earlier view does. */
module PostsViews {
  import opened Outcomes
  import opened Models
  import opened Requests
  import opened PostListUpdate
  import opened Fields

  /** The query parameters `title`, `text`, `company` and `topic`. */
  datatype PostQuery = PostQuery(title: Option<string>, text: Option<string>, company: Option<string>, topic: Option<string>)

  /** `text__contains`: `needle` occurs in `hay`. */
  predicate Contains(hay: string, needle: string) {
    exists k :: 0 <= k <= |hay| - |needle| && OccursAt(hay, needle, k)
  }

  predicate OccursAt(hay: string, needle: string, k: int) {
    0 <= k <= |hay| - |needle| && hay[k..k + |needle|] == needle
  }

  predicate TitleMatches(p: Post, q: PostQuery) {
    !Given(q.title) || p.title == q.title.value
  }

  predicate TextMatches(p: Post, q: PostQuery) {
    !Given(q.text) || (p.text.Some? && Contains(p.text.value, q.text.value))
  }

  predicate TopicMatches(p: Post, q: PostQuery) {
    !Given(q.topic) || TopicValue(p.topic) == q.topic.value
  }

  predicate AuthorInCompany(s: Store, p: Post, c: nat) {
    p.author in s.users && s.users[p.author].company == Some(c)
  }

  /** `PostViewSet.list` of a view that declares its serializer. Staff get
      the posts matching every given filter (a `company` filter names a
      field `Post` lacks and fails); anyone else gets their own posts, or,
      with any `company` parameter, the posts of their own company's
      users. */
  function ListPosts(s: Store, a: Actor, q: PostQuery, hidesDeleted: bool): (r: Result<set<nat>>)
    ensures IsStaff(a) && Given(q.company) ==> r == Err(UnknownField("company"))
    ensures IsStaff(a) && !Given(q.company) ==> r.Ok? && forall id ::
      id in r.value <==> (id in Objects(s.posts, hidesDeleted)
        && TitleMatches(s.posts[id], q) && TextMatches(s.posts[id], q) && TopicMatches(s.posts[id], q))
    ensures !IsStaff(a) && !Given(q.company) ==> r.Ok? && forall id ::
      id in r.value <==> id in Objects(s.posts, hidesDeleted) && a.Authenticated? && s.posts[id].author == a.id
    ensures !IsStaff(a) && Given(q.company) ==> (r.Ok? <==> a.Authenticated? && a.user.company.Some?)
    ensures !IsStaff(a) && Given(q.company) && r.Ok? ==> forall id ::
      id in r.value <==> id in Objects(s.posts, hidesDeleted) && AuthorInCompany(s, s.posts[id], a.user.company.value)
  {
    var rows := Objects(s.posts, hidesDeleted);
    if IsStaff(a) then
      if Given(q.company) then Err(UnknownField("company"))
      else Ok(set id | id in rows && TitleMatches(rows[id], q) && TextMatches(rows[id], q) && TopicMatches(rows[id], q))
    else if Given(q.company) then
      if a.Anonymous? || a.user.company.None? then Err(NoCompany)
      else Ok(set id | id in rows && AuthorInCompany(s, rows[id], a.user.company.value))
    else if a.Anonymous? then Ok({})
    else Ok(set id | id in rows && rows[id].author == a.id)
  }

  /** `PostViewSet.list` as written in posts/views.py: every branch that
      reaches `self.get_serializer` fails there, since the view declares no
      `serializer_class`. Only a non-staff listing without `company`, which
      serializes with `PostSerializer` directly, completes. */
  function ListPostsAsWritten(s: Store, a: Actor, q: PostQuery, hidesDeleted: bool): (r: Result<set<nat>>)
    ensures r.Ok? <==> !IsStaff(a) && !Given(q.company)
    ensures r.Ok? ==> r == ListPosts(s, a, q, hidesDeleted)
    ensures ListPosts(s, a, q, hidesDeleted).Err? ==> r == ListPosts(s, a, q, hidesDeleted)
    ensures ListPosts(s, a, q, hidesDeleted).Ok? && r.Err? ==> r.error == NoSerializerClass
  {
    var rows := Objects(s.posts, hidesDeleted);
    if IsStaff(a) then
      if Given(q.company) then Err(UnknownField("company"))
      else Err(NoSerializerClass)
    else if Given(q.company) then
      if a.Anonymous? || a.user.company.None? then Err(NoCompany)
      else Err(NoSerializerClass)
    else if a.Anonymous? then Ok({})
    else Ok(set id | id in rows && rows[id].author == a.id)
  }

  /** The finding: a staff listing without filters, which the corrected view
      answers with every post, fails as written. */
  lemma StaffListingFails(s: Store, a: Actor, hidesDeleted: bool)
    requires IsStaff(a)
    ensures ListPosts(s, a, PostQuery(None, None, None, None), hidesDeleted) == Ok(Objects(s.posts, hidesDeleted).Keys)
    ensures ListPostsAsWritten(s, a, PostQuery(None, None, None, None), hidesDeleted) == Err(NoSerializerClass)
  {
    NoFilterListsAll(s, a, hidesDeleted);
  }

  /** `q2` keeps every filter `q1` gives and may give more. */
  predicate Refines(q2: PostQuery, q1: PostQuery) {
    && (Given(q1.title) ==> q2.title == q1.title)
    && (Given(q1.text) ==> q2.text == q1.text)
    && (Given(q1.topic) ==> q2.topic == q1.topic)
  }

  /** Adding a filter to a staff query can only shrink the result. */
  lemma AddingFilterShrinks(s: Store, a: Actor, q1: PostQuery, q2: PostQuery, hidesDeleted: bool)
    requires IsStaff(a) && !Given(q1.company) && !Given(q2.company)
    requires Refines(q2, q1)
    ensures ListPosts(s, a, q2, hidesDeleted).Ok? && ListPosts(s, a, q1, hidesDeleted).Ok?
    ensures ListPosts(s, a, q2, hidesDeleted).value <= ListPosts(s, a, q1, hidesDeleted).value
  {
  }

  /** A staff query without filters lists every post the manager yields. */
  lemma NoFilterListsAll(s: Store, a: Actor, hidesDeleted: bool)
    requires IsStaff(a)
    ensures ListPosts(s, a, PostQuery(None, None, None, None), hidesDeleted) == Ok(Objects(s.posts, hidesDeleted).Keys)
  {
    var r := ListPosts(s, a, PostQuery(None, None, None, None), hidesDeleted);
    assert r.value == Objects(s.posts, hidesDeleted).Keys;
  }

  /** Title, text and topic are ignored for non-staff actors, and so is the
      value of `company` (only its presence counts). */
  lemma NonStaffIgnoresFilters(s: Store, a: Actor, q1: PostQuery, q2: PostQuery, hidesDeleted: bool)
    requires !IsStaff(a) && Given(q1.company) == Given(q2.company)
    ensures ListPosts(s, a, q1, hidesDeleted) == ListPosts(s, a, q2, hidesDeleted)
  {
  }

  /** With a soft-delete manager no listing shows a soft-deleted post. */
  lemma SoftDeletedNeverListed(s: Store, a: Actor, q: PostQuery)
    ensures var r := ListPosts(s, a, q, true);
      r.Ok? ==> forall id :: id in r.value ==> id in s.posts && !s.posts[id].isDeleted
  {
  }

  /** Marks one post deleted; the row stays. */
  function SoftDelete(s: Store, id: nat): (r: Store)
    requires id in s.posts
    ensures r.posts.Keys == s.posts.Keys
    ensures r.posts[id].isDeleted
    ensures r.posts[id].(isDeleted := s.posts[id].isDeleted) == s.posts[id]
    ensures forall p :: p in s.posts && p != id ==> r.posts[p] == s.posts[p]
    ensures r.users == s.users && r.companies == s.companies && r.tokens == s.tokens
  {
    s.(posts := s.posts[id := s.posts[id].(isDeleted := true)])
  }

  /** `PostViewSet.destroy`: the post is looked up through the manager (404
      when it yields none) and the object permission is checked before
      `is_deleted` is set. The permission class of this revision is not part
      of this model, so its object-level decision is the parameter `permits`. */
  function DestroyPost(s: Store, a: Actor, id: nat, hidesDeleted: bool, permits: Post -> bool): (r: Result<Store>)
    ensures id !in Objects(s.posts, hidesDeleted) ==> r == Err(NotFound)
    ensures id in Objects(s.posts, hidesDeleted) && !permits(s.posts[id]) ==> r == Err(Denied(a))
    ensures r.Ok? <==> id in Objects(s.posts, hidesDeleted) && permits(s.posts[id])
    ensures r.Ok? ==> id in s.posts && r.value == SoftDelete(s, id)
  {
    var rows := Objects(s.posts, hidesDeleted);
    if id !in rows then Err(NotFound)
    else if !permits(rows[id]) then Err(Denied(a))
    else Ok(SoftDelete(s, id))
  }

  /** Destroying twice is destroying once: the second call leaves the store
      as the first left it, or finds no post when the manager hides it. */
  lemma DestroyIsIdempotent(s: Store, a: Actor, id: nat, hidesDeleted: bool, permits: Post -> bool)
    requires (forall p: Post :: permits(p) == permits(p.(isDeleted := true)))
    requires DestroyPost(s, a, id, hidesDeleted, permits).Ok?
    ensures var s1 := DestroyPost(s, a, id, hidesDeleted, permits).value;
      var r2 := DestroyPost(s1, a, id, hidesDeleted, permits);
      && (hidesDeleted ==> r2 == Err(NotFound))
      && (!hidesDeleted ==> r2 == Ok(s1))
  {
    var s1 := SoftDelete(s, id);
    assert s1.posts[id] == s.posts[id].(isDeleted := true);
    if !hidesDeleted {
      assert permits(s1.posts[id]) == permits(s.posts[id]);
      assert s1.posts[id := s1.posts[id].(isDeleted := true)] == s1.posts;
    }
  }

  /** After a destroy the row is still stored (`all_objects` yields it) but a
      soft-delete manager no longer yields it. */
  lemma DestroyedPostPersists(s: Store, a: Actor, id: nat, hidesDeleted: bool, permits: Post -> bool)
    requires DestroyPost(s, a, id, hidesDeleted, permits).Ok?
    ensures var s1 := DestroyPost(s, a, id, hidesDeleted, permits).value;
      id in s1.posts && id !in Objects(s1.posts, true)
  {
  }

  /** The body a post serializer accepts: a title that strips to non-blank
      within its column, a text that fits its column once stripped, and a
      topic that is one of the choices (a choice field does not strip). */
  predicate PostFormValid(title: Option<string>, text: Option<string>, topic: Option<string>) {
    && Required(title, TitleMaxLength)
    && Fits(Cleaned(text), TextMaxLength)
    && topic.Some? && ParseTopic(topic.value).Some?
  }

  /** `create` of a view that declares its serializer: POST needs an
      authenticated actor, checked before the body is validated; then the
      fields are validated in declaration order (title, text, topic);
      `perform_create` saves the stripped values with the actor as author,
      and `is_deleted` takes its default unless submitted. */
  function CreatePost(s: Store, a: Actor, title: Option<string>, text: Option<string>, topic: Option<string>, isDeleted: Option<bool>): (r: Result<Saved>)
    ensures a.Anonymous? ==> r == Err(NotAuthenticated)
    ensures a.Authenticated? && !Required(title, TitleMaxLength) ==> r == Err(InvalidField("title"))
    ensures a.Authenticated? && Required(title, TitleMaxLength) && !Fits(Cleaned(text), TextMaxLength) ==> r == Err(InvalidField("text"))
    ensures (a.Authenticated? && Required(title, TitleMaxLength) && Fits(Cleaned(text), TextMaxLength)
      && (topic.None? || ParseTopic(topic.value).None?)) ==> r == Err(InvalidField("topic"))
    ensures r.Ok? <==> a.Authenticated? && a.id in s.users && PostFormValid(title, text, topic)
    ensures r.Ok? ==>
      && r.value.id !in s.posts
      && r.value.store.posts == s.posts[r.value.id := Post(Trim(title.value), Cleaned(text), ParseTopic(topic.value).value, a.id, isDeleted.GetOr(false))]
      && r.value.store.users == s.users && r.value.store.companies == s.companies && r.value.store.tokens == s.tokens
    ensures r.Ok? ==> PostFits(r.value.store.posts[r.value.id]) && TopicValue(r.value.store.posts[r.value.id].topic) == topic.value
    ensures r.Ok? && isDeleted.None? ==> !r.value.store.posts[r.value.id].isDeleted
    ensures Valid(s) && r.Ok? ==> Valid(r.value.store)
  {
    if a.Anonymous? then Err(NotAuthenticated)
    else if !Required(title, TitleMaxLength) then Err(InvalidField("title"))
    else if !Fits(Cleaned(text), TextMaxLength) then Err(InvalidField("text"))
    else if topic.None? || ParseTopic(topic.value).None? then Err(InvalidField("topic"))
    else if a.id !in s.users then Err(IntegrityError)
    else
      var id := Tables.FreshKey(s.posts.Keys);
      var p := Post(Trim(title.value), Cleaned(text), ParseTopic(topic.value).value, a.id, isDeleted.GetOr(false));
      assert PostFits(p);
      var t := s.(posts := s.posts[id := p]);
      assert Valid(s) ==> Valid(t);
      Ok(Saved(t, id))
  }

  /** `create` as written in posts/views.py: `ModelViewSet.create` asks
      `get_serializer` for the request body before `perform_create` runs,
      and the view declares no `serializer_class`, so every POST that
      passes the permission check fails there. */
  function CreatePostAsWritten(s: Store, a: Actor, title: Option<string>, text: Option<string>, topic: Option<string>, isDeleted: Option<bool>): (r: Result<Saved>)
    ensures a.Anonymous? ==> r == Err(NotAuthenticated)
    ensures a.Authenticated? ==> r == Err(NoSerializerClass)
  {
    if a.Anonymous? then Err(NotAuthenticated) else Err(NoSerializerClass)
  }

  /** The finding: every post the corrected view creates is refused as
      written, and the store keeps no new post. */
  lemma CreateNeverCompletes(s: Store, a: Actor, title: Option<string>, text: Option<string>, topic: Option<string>, isDeleted: Option<bool>)
    requires CreatePost(s, a, title, text, topic, isDeleted).Ok?
    ensures CreatePostAsWritten(s, a, title, text, topic, isDeleted) == Err(NoSerializerClass)
    ensures CreatePost(s, a, title, text, topic, isDeleted).value.store.posts.Keys == s.posts.Keys + {CreatePost(s, a, title, text, topic, isDeleted).value.id}
  {
  }

  /** The serializer's validation of one item: the update is not partial, so
      `title` and `topic` are required; the topic must be one of the
      choices, matched as submitted; the column bounds apply to the
      stripped values. The update itself applies the raw request data, so
      what is stored is not stripped. */
  predicate ItemValid(it: Item): (b: bool)
    ensures b ==> it.patch.topic.Some? && exists t: Topic :: TopicValue(t) == it.patch.topic.value
  {
    && Required(it.patch.title, TitleMaxLength)
    && it.patch.topic.Some? && ParseTopic(it.patch.topic.value).Some?
    && (it.patch.text.Some? ==> Fits(Cleaned(it.patch.text.value), TextMaxLength))
  }

  /** A valid item stores its title as submitted and the choice its topic
      string names, and keeps the author. */
  lemma ValidItemStoresSubmitted(p: Post, it: Item)
    requires ItemValid(it)
    ensures var q := ApplyPatch(p, it.patch);
      q.title == it.patch.title.value && TopicValue(q.topic) == it.patch.topic.value && q.author == p.author
  {
  }

  datatype BulkResult = BulkResult(store: Store, updated: seq<Post>, failure: Option<Error>)

  /** The posts the view fetches: `Post.objects.filter(id__in=ids)`. */
  function Fetched(s: Store, items: seq<Item>, hidesDeleted: bool): (f: map<nat, Post>)
    ensures f.Keys <= s.posts.Keys
    ensures forall id :: id in f <==> id in Objects(s.posts, hidesDeleted) && id in Ids(items)
    ensures forall id :: id in f ==> f[id] == s.posts[id]
  {
    var rows := Objects(s.posts, hidesDeleted);
    map id | id in rows && id in Ids(items) :: rows[id]
  }

  /** `PostBulkUpdate.update`. No permission class is declared and the
      ownership check is commented out, so no actor appears: any request
      that validates is applied, whoever authored the posts. */
  function BulkUpdate(s: Store, items: seq<Item>, hidesDeleted: bool): (r: Result<BulkResult>)
    ensures r.Err? <==> exists i :: 0 <= i < |items| && !ItemValid(items[i])
    ensures r.Err? ==> r.error == InvalidField("items")
    ensures r.Ok? ==>
      && r.value.store.users == s.users && r.value.store.companies == s.companies && r.value.store.tokens == s.tokens
      && r.value.store.posts.Keys == s.posts.Keys
    ensures r.Ok? ==> (r.value.failure.None? <==> forall i :: 0 <= i < |items| ==> items[i].id in Objects(s.posts, hidesDeleted))
    ensures r.Ok? && r.value.failure.Some? ==> exists i :: (0 <= i < |items|
      && items[i].id !in Objects(s.posts, hidesDeleted) && r.value.failure == Some(MissingPost(items[i].id)))
  {
    if exists i :: 0 <= i < |items| && !ItemValid(items[i]) then Err(InvalidField("items"))
    else
      var o := ApplyAll(s.posts, Fetched(s, items, hidesDeleted), DataMapping(items));
      BulkFailure(s, items, hidesDeleted);
      Ok(BulkResult(s.(posts := o.posts), o.updated, o.failure))
  }

  /** The loop fails exactly when some named post is not visible, and then
      it reports one such post. */
  lemma BulkFailure(s: Store, items: seq<Item>, hidesDeleted: bool)
    ensures var o := ApplyAll(s.posts, Fetched(s, items, hidesDeleted), DataMapping(items));
      && (o.failure.None? <==> forall i :: 0 <= i < |items| ==> items[i].id in Objects(s.posts, hidesDeleted))
      && (o.failure.Some? ==> exists i :: (0 <= i < |items|
            && items[i].id !in Objects(s.posts, hidesDeleted) && o.failure == Some(MissingPost(items[i].id))))
  {
    var f := Fetched(s, items, hidesDeleted);
    var m := DataMapping(items);
    ApplyAllStopsAtMissing(s.posts, f, m);
    MappingFetchedIff(s, items, hidesDeleted);
  }

  /** A valid request whose ids are all fetched completes: no failure, and
      one updated post per distinct id. */
  lemma BulkUpdateCompletes(s: Store, items: seq<Item>, hidesDeleted: bool)
    requires forall i :: 0 <= i < |items| ==> ItemValid(items[i])
    requires forall i :: 0 <= i < |items| ==> items[i].id in Objects(s.posts, hidesDeleted)
    ensures var r := BulkUpdate(s, items, hidesDeleted);
      r.Ok? && r.value.failure.None? && |r.value.updated| == |Ids(items)|
  {
    var f := Fetched(s, items, hidesDeleted);
    var m := DataMapping(items);
    MappingIsFetched(s, items, hidesDeleted);
    ApplyAllStopsAtMissing(s.posts, f, m);
    DistinctIdsCount(m);
    var o := ApplyAll(s.posts, f, m);
    assert BulkUpdate(s, items, hidesDeleted) == Ok(BulkResult(s.(posts := o.posts), o.updated, o.failure));
  }

  /** A valid request whose ids are all fetched updates each named post with
      the data of the last item naming it. */
  lemma BulkUpdateAppliesLastData(s: Store, items: seq<Item>, hidesDeleted: bool)
    requires forall i :: 0 <= i < |items| ==> ItemValid(items[i])
    requires forall i :: 0 <= i < |items| ==> items[i].id in Objects(s.posts, hidesDeleted)
    ensures var r := BulkUpdate(s, items, hidesDeleted);
      r.Ok? && forall id :: id in Ids(items) ==>
        id in s.posts && r.value.store.posts[id] == ApplyPatch(s.posts[id], LastPatch(items, id))
  {
    var f := Fetched(s, items, hidesDeleted);
    var m := DataMapping(items);
    MappingIsFetched(s, items, hidesDeleted);
    ApplyAllStopsAtMissing(s.posts, f, m);
    ApplyAllUpdates(s.posts, f, m);
    var o := ApplyAll(s.posts, f, m);
    assert BulkUpdate(s, items, hidesDeleted) == Ok(BulkResult(s.(posts := o.posts), o.updated, o.failure));
    forall id | id in Ids(items)
      ensures id in s.posts && o.posts[id] == ApplyPatch(s.posts[id], LastPatch(items, id))
    {
      var k := FirstIndex(m, id);
    }
  }

  /** A bulk update leaves every post the request does not name as it was. */
  lemma BulkUpdateLeavesUnnamed(s: Store, items: seq<Item>, hidesDeleted: bool)
    requires BulkUpdate(s, items, hidesDeleted).Ok?
    ensures var t := BulkUpdate(s, items, hidesDeleted).value.store;
      forall id :: id in s.posts && id !in Ids(items) ==> t.posts[id] == s.posts[id]
  {
    ApplyAllFrame(s.posts, Fetched(s, items, hidesDeleted), DataMapping(items));
  }

  /** Every id of the mapping was fetched when every named post is visible. */
  lemma MappingIsFetched(s: Store, items: seq<Item>, hidesDeleted: bool)
    requires forall i :: 0 <= i < |items| ==> items[i].id in Objects(s.posts, hidesDeleted)
    ensures forall k :: 0 <= k < |DataMapping(items)| ==> DataMapping(items)[k].id in Fetched(s, items, hidesDeleted)
  {
    var m := DataMapping(items);
    forall k | 0 <= k < |m|
      ensures m[k].id in Fetched(s, items, hidesDeleted)
    {
      var i := FirstIndex(items, m[k].id);
    }
  }

  /** Every entry of the mapping was fetched exactly when every named post
      is visible, and an entry that was not names an item whose post is
      hidden or absent. */
  lemma MappingFetchedIff(s: Store, items: seq<Item>, hidesDeleted: bool)
    ensures var m := DataMapping(items); var f := Fetched(s, items, hidesDeleted);
      && ((forall k :: 0 <= k < |m| ==> m[k].id in f) <==> (forall i :: 0 <= i < |items| ==> items[i].id in Objects(s.posts, hidesDeleted)))
      && (forall k :: 0 <= k < |m| && m[k].id !in f ==>
            exists i :: 0 <= i < |items| && items[i].id == m[k].id && items[i].id !in Objects(s.posts, hidesDeleted))
  {
    var m := DataMapping(items);
    var f := Fetched(s, items, hidesDeleted);
    if forall k :: 0 <= k < |m| ==> m[k].id in f {
      forall i | 0 <= i < |items|
        ensures items[i].id in Objects(s.posts, hidesDeleted)
      {
        assert items[i].id in Ids(m);
        var k :| 0 <= k < |m| && m[k].id == items[i].id;
      }
    }
    if forall i :: 0 <= i < |items| ==> items[i].id in Objects(s.posts, hidesDeleted) {
      MappingIsFetched(s, items, hidesDeleted);
    }
    forall k | 0 <= k < |m| && m[k].id !in f
      ensures exists i :: 0 <= i < |items| && items[i].id == m[k].id && items[i].id !in Objects(s.posts, hidesDeleted)
    {
      var i :| 0 <= i < |items| && items[i].id == m[k].id;
    }
  }

  /** A bulk update whose items submit no `is_deleted` keeps every post's
      deletion flag. */
  lemma BulkUpdateKeepsFlags(s: Store, items: seq<Item>, hidesDeleted: bool)
    requires Unflagged(items)
    ensures BulkUpdate(s, items, hidesDeleted).Ok? ==> var t := BulkUpdate(s, items, hidesDeleted).value.store;
      forall id :: id in s.posts ==> t.posts[id].isDeleted == s.posts[id].isDeleted
  {
    if BulkUpdate(s, items, hidesDeleted).Ok? {
      var f := Fetched(s, items, hidesDeleted);
      var m := DataMapping(items);
      forall k | 0 <= k < |m|
        ensures m[k].patch.isDeleted.None?
      {
        LastPatchUnflagged(items, m[k].id);
      }
      ApplyAllKeepsFlags(s.posts, f, m);
      var o := ApplyAll(s.posts, f, m);
      assert BulkUpdate(s, items, hidesDeleted) == Ok(BulkResult(s.(posts := o.posts), o.updated, o.failure));
    }
  }

  /** A bulk update never changes a post's author. */
  lemma BulkUpdateKeepsAuthors(s: Store, items: seq<Item>, hidesDeleted: bool)
    requires BulkUpdate(s, items, hidesDeleted).Ok?
    ensures var t := BulkUpdate(s, items, hidesDeleted).value.store;
      forall id :: id in s.posts ==> t.posts[id].author == s.posts[id].author
  {
    var f := Fetched(s, items, hidesDeleted);
    var m := DataMapping(items);
    ApplyAllKeepsAuthors(s.posts, f, m);
    var o := ApplyAll(s.posts, f, m);
    assert BulkUpdate(s, items, hidesDeleted) == Ok(BulkResult(s.(posts := o.posts), o.updated, o.failure));
  }
}

=== FILE: rest_api.dfy ===
/** The serializers of the earlier revision (rest_api/serializers.py). Its
    `PostListUpdate` is the bulk merge of `PostListUpdate`. */
module RestApiSerializers {
  import opened Outcomes
  import opened Models
  import opened Fields
  import opened Accounts

  /** `PasswordResetSerializer.validate`: the first user with the stripped
      email must exist and be active; the stripped new password is set and
      saved. */
  function PasswordReset(s: Store, email: Option<string>, password: Option<string>, h: Hasher): (r: Result<Store>)
    ensures !Present(email) ==> r == Err(InvalidField("email"))
    ensures Present(email) && !Required(password, PasswordMaxLength) ==> r == Err(InvalidField("password"))
    ensures Present(email) && Required(password, PasswordMaxLength) ==>
      var sel := FirstByEmail(s.users, Trim(email.value));
      && (r.Ok? <==> (sel.Some? && s.users[sel.value].isActive))
      && (r.Err? ==> r.error == UserNotFound)
    ensures r.Ok? ==> var id := FirstByEmail(s.users, Trim(email.value)).value;
      r.value == Put(s, id, s.users[id].(password := h.make(Trim(password.value))))
  {
    if !Present(email) then Err(InvalidField("email"))
    else if !Required(password, PasswordMaxLength) then Err(InvalidField("password"))
    else match FirstByEmail(s.users, Trim(email.value))
      case None => Err(UserNotFound)
      case Some(id) =>
        if !s.users[id].isActive then Err(UserNotFound)
        else Ok(Put(s, id, s.users[id].(password := h.make(Trim(password.value)))))
  }

  /** `UserSerializer.create`: the email must be unused, `user_type` must be
      submitted (it is read with `data['user_type']`), the user becomes
      staff exactly when it is an Admin and is always created inactive. */
  function CreateUser(s: Store, f: UserForm, h: Hasher): (r: Result<Saved>)
    ensures r.Ok? <==> (Present(f.email) && !EmailUsed(s.users, Trim(f.email.value))
      && Required(f.password, PasswordMaxLength) && ProfileFits(f)
      && (f.company.None? || f.company.value in s.companies)
      && f.userType.Some?)
    ensures (Present(f.email) && !EmailUsed(s.users, Trim(f.email.value))
      && Required(f.password, PasswordMaxLength) && ProfileFits(f)
      && (f.company.None? || f.company.value in s.companies)
      && f.userType.None?) ==> r == Err(MissingKey("user_type"))
    ensures r.Ok? ==>
      && r.value.id !in s.users && r.value.id in r.value.store.users
      && r.value.store.users == s.users[r.value.id := r.value.store.users[r.value.id]]
      && r.value.store.companies == s.companies && r.value.store.posts == s.posts && r.value.store.tokens == s.tokens
    ensures r.Ok? ==> r.value.id in r.value.store.users && var u := r.value.store.users[r.value.id];
      && u.email == Trim(f.email.value) && u.password == h.make(Trim(f.password.value))
      && u.userType == f.userType.value && u.company == f.company
      && !u.isActive && (u.isStaff <==> f.userType.value == Admin) && !u.isSuperuser
      && !u.inviteAccepted
  {
    if !Present(f.email) || EmailUsed(s.users, Trim(f.email.value)) then Err(InvalidField("email"))
    else if !Required(f.password, PasswordMaxLength) then Err(InvalidField("password"))
    else if !ProfileFits(f) then Err(InvalidField("profile"))
    else if f.company.Some? && f.company.value !in s.companies then Err(InvalidField("company"))
    else if f.userType.None? then Err(MissingKey("user_type"))
    else
      var u := FromForm(f.(inviteAccepted := None), f.userType.value, h).(isStaff := f.userType.value == Admin, isActive := false);
      Ok(Add(s, u))
  }

  /** `UserSerializer.update` on a partial request: only the password is
      used, and only when it is submitted; a blank or overlong password
      fails validation, and the stripped password is stored. */
  function UpdateUser(s: Store, id: nat, password: Option<string>, h: Hasher): (r: Result<Store>)
    requires id in s.users
    ensures password.None? ==> r == Ok(s)
    ensures password.Some? && !Required(password, PasswordMaxLength) ==> r == Err(InvalidField("password"))
    ensures Required(password, PasswordMaxLength) ==> r == Ok(Put(s, id, s.users[id].(password := h.make(Trim(password.value)))))
  {
    if password.None? then Ok(s)
    else if !Required(password, PasswordMaxLength) then Err(InvalidField("password"))
    else Ok(Put(s, id, s.users[id].(password := h.make(Trim(password.value)))))
  }
}

/** The views of the earlier revision (rest_api/views.py) over the models of
    portal_app/models.py. Its post listing runs the code of
    `PostsViews.ListPosts` over a `Post` without a soft-delete manager
    (`hidesDeleted == false`); its post creation and bulk update run the
    later code over a `Post` that has no `is_deleted` column at all, so a
    submitted flag is never stored; its company listing is
    `CompaniesViews.ListCompanies` with `hidesDeleted == false`. */
module RestApiViews {
  import opened Outcomes
  import opened Models
  import opened Fields
  import opened Accounts
  import opened Requests
  import opened RestApiPermissions
  import RestApiSerializers
  import PostsViews
  import PostListUpdate

  /** `LoginView.post`: `email` and `password` are read as required keys;
      a user that passes `Authenticate` gets its last login set to `now`
      and nothing else changes. */
  function Login(s: Store, email: Option<string>, password: Option<string>, h: Hasher, now: int): (r: Result<Saved>)
    ensures email.None? ==> r == Err(MissingKey("email"))
    ensures email.Some? && password.None? ==> r == Err(MissingKey("password"))
    ensures email.Some? && password.Some? ==>
      && (r.Ok? <==> Authenticate(s.users, email.value, password.value, h).Ok?)
      && (r.Err? ==> r.error == Authenticate(s.users, email.value, password.value, h).error)
    ensures r.Ok? ==>
      && FirstByEmail(s.users, email.value) == Some(r.value.id)
      && r.value.store == TouchLogin(s, r.value.id, now)
  {
    if email.None? then Err(MissingKey("email"))
    else if password.None? then Err(MissingKey("password"))
    else
      var id :- Authenticate(s.users, email.value, password.value, h);
      Ok(Saved(TouchLogin(s, id, now), id))
  }

  /** `ActivateAccount.get`: the decoded primary key (`None` when the link
      does not decode to one) must name a user, which becomes active. */
  function ActivateAccount(s: Store, uid: Option<nat>): (r: Result<Store>)
    ensures r.Err? <==> uid.None? || uid.value !in s.users
    ensures r.Err? ==> r.error == InvalidActivationLink
    ensures r.Ok? ==> r.value == Put(s, uid.value, s.users[uid.value].(isActive := true))
  {
    if uid.None? || uid.value !in s.users then Err(InvalidActivationLink)
    else Ok(Put(s, uid.value, s.users[uid.value].(isActive := true)))
  }

  /** `UserViewset.list`: reads are open to everyone; staff see every user,
      active or not, anyone else only themself. */
  function ListUsers(s: Store, a: Actor): (r: set<nat>)
    ensures r <= s.users.Keys
    ensures IsStaff(a) ==> r == s.users.Keys
    ensures !IsStaff(a) ==> forall id :: id in r <==> id in s.users && a.Authenticated? && id == a.id
  {
    if IsStaff(a) then s.users.Keys
    else if a.Authenticated? && a.id in s.users then {a.id}
    else {}
  }

  /** `UserViewset.destroy`: after the view-level check the row is fetched
      from all users and deleted, without an object-level check. */
  function DestroyUser(s: Store, a: Actor, id: nat): (r: Result<Store>)
    ensures !UserHasPermission(DELETE, a) ==> r == Err(Denied(a))
    ensures UserHasPermission(DELETE, a) ==>
      && (r.Ok? <==> id in s.users)
      && (r.Err? ==> r.error == DoesNotExist)
    ensures r.Ok? ==> r.value == DeleteUser(s, id)
  {
    if !UserHasPermission(DELETE, a) then Err(Denied(a))
    else if id !in s.users then Err(DoesNotExist)
    else Ok(DeleteUser(s, id))
  }

  /** Staff may delete a superuser although the object-level rule forbids
      staff any write to one. */
  lemma StaffDeletesSuperuser(s: Store, a: Actor, id: nat)
    requires IsStaff(a) && id in s.users && s.users[id].isSuperuser && a.id != id
    ensures DestroyUser(s, a, id).Ok? && id !in DestroyUser(s, a, id).value.users
    ensures !UserHasObjectPermission(DELETE, a, id, s.users[id])
  {
  }

  /** `UserViewset.create`: staff only; the serializer creates the user. */
  function CreateUser(s: Store, a: Actor, f: UserForm, h: Hasher): (r: Result<Saved>)
    ensures !IsStaff(a) ==> r == Err(Denied(a))
    ensures IsStaff(a) ==> r == RestApiSerializers.CreateUser(s, f, h)
    ensures r.Ok? ==> IsStaff(a) && r.value.id in r.value.store.users && !r.value.store.users[r.value.id].isActive
  {
    if !UserHasPermission(POST, a) then Err(Denied(a))
    else RestApiSerializers.CreateUser(s, f, h)
  }

  /** `UserViewset.password_reset` (PATCH): the target is looked up among
      active users, the object-level rule applies, then the serializer's
      `update` runs. */
  function ResetPassword(s: Store, a: Actor, id: nat, password: Option<string>, h: Hasher): (r: Result<Store>)
    ensures !a.Authenticated? ==> r == Err(NotAuthenticated)
    ensures a.Authenticated? && (id !in s.users || !s.users[id].isActive) ==> r == Err(NotFound)
    ensures a.Authenticated? && id in s.users && s.users[id].isActive ==>
      && (!UserHasObjectPermission(PATCH, a, id, s.users[id]) ==> r == Err(PermissionDenied))
      && (UserHasObjectPermission(PATCH, a, id, s.users[id]) ==> r == RestApiSerializers.UpdateUser(s, id, password, h))
  {
    if !UserHasPermission(PATCH, a) then Err(Denied(a))
    else if id !in s.users || !s.users[id].isActive then Err(NotFound)
    else if !UserHasObjectPermission(PATCH, a, id, s.users[id]) then Err(Denied(a))
    else RestApiSerializers.UpdateUser(s, id, password, h)
  }

  /** Only the user themself, or staff on a user that is not a superuser,
      can change a password through the action. */
  lemma ResetPasswordIsSelfOrStaff(s: Store, a: Actor, id: nat, password: Option<string>, h: Hasher)
    requires id in s.users
    requires ResetPassword(s, a, id, password, h).Ok?
    requires ResetPassword(s, a, id, password, h).value != s
    ensures a.Authenticated? && (a.id == id || (a.user.isStaff && !s.users[id].isSuperuser))
    ensures password.Some?
  {
  }

  /** `PostViewSet.destroy` as written: `is_deleted` is not a field of this
      revision's `Post`, so setting it and saving stores nothing. */
  function DestroyPostAsWritten(s: Store, a: Actor, id: nat): (r: Result<Store>)
    ensures !PostHasPermission(DELETE, a) ==> r == Err(Denied(a))
    ensures PostHasPermission(DELETE, a) ==> (r.Ok? <==> id in s.posts) && (r.Err? ==> r.error == NotFound)
    ensures r.Ok? ==> r.value == s
  {
    if !PostHasPermission(DELETE, a) then Err(Denied(a))
    else if id !in s.posts then Err(NotFound)
    else if !PostHasObjectPermission(DELETE, a, id, s.posts[id]) then Err(Denied(a))
    else Ok(s)
  }

  /** `PostViewSet.destroy` with the soft delete taking effect, as in the
      later revision: staff mark the post deleted and change nothing else. */
  function DestroyPost(s: Store, a: Actor, id: nat): (r: Result<Store>)
    ensures !PostHasPermission(DELETE, a) ==> r == Err(Denied(a))
    ensures PostHasPermission(DELETE, a) ==> (r.Ok? <==> id in s.posts) && (r.Err? ==> r.error == NotFound)
    ensures r.Ok? ==> id in s.posts && r.value == PostsViews.SoftDelete(s, id)
  {
    if !PostHasPermission(DELETE, a) then Err(Denied(a))
    else PostsViews.DestroyPost(s, a, id, false, p => PostHasObjectPermission(DELETE, a, id, p))
  }

  /** `PostViewSet.create` of this revision: POST needs an authenticated
      actor; the body is validated and saved as in the later revision, but
      no `is_deleted` is read or stored, so every created post is live. A
      failed request fails as the later creation does, whatever flag that
      one is given. */
  function CreatePost(s: Store, a: Actor, title: Option<string>, text: Option<string>, topic: Option<string>): (r: Result<Saved>)
    ensures !a.Authenticated? ==> r == Err(NotAuthenticated)
    ensures r.Ok? <==> a.Authenticated? && a.id in s.users && PostsViews.PostFormValid(title, text, topic)
    ensures forall d: Option<bool> :: r.Err? ==> r == PostsViews.CreatePost(s, a, title, text, topic, d)
    ensures r.Ok? ==>
      && r.value.id !in s.posts
      && r.value.store.posts == s.posts[r.value.id := Post(Trim(title.value), Cleaned(text), ParseTopic(topic.value).value, a.id, false)]
      && r.value.store.users == s.users && r.value.store.companies == s.companies && r.value.store.tokens == s.tokens
  {
    if !PostHasPermission(POST, a) then Err(Denied(a))
    else PostsViews.CreatePost(s, a, title, text, topic, None)
  }

  /** The items as this revision's update saves them: `is_deleted` is set
      on the instance but is not a column, so it is never stored. */
  function DropFlags(items: seq<PostListUpdate.Item>): (r: seq<PostListUpdate.Item>)
    ensures |r| == |items| && PostListUpdate.Unflagged(r)
    ensures forall i :: 0 <= i < |items| ==> r[i].id == items[i].id && r[i].patch == items[i].patch.(isDeleted := None)
  {
    seq(|items|, i requires 0 <= i < |items| => PostListUpdate.Item(items[i].id, items[i].patch.(isDeleted := None)))
  }

  /** `PostBulkUpdate.update` of this revision: the later bulk update over
      all posts, with submitted flags dropped. It fails exactly when an
      item does not validate, and it never changes whether a post is
      deleted. An id with no post stops the loop: the posts saved before it
      stay saved and the missing id is reported as the failure. */
  function BulkUpdate(s: Store, items: seq<PostListUpdate.Item>): (r: Result<PostsViews.BulkResult>)
    ensures r.Err? <==> exists i :: 0 <= i < |items| && !PostsViews.ItemValid(items[i])
    ensures r.Ok? ==>
      && r.value.store.users == s.users && r.value.store.companies == s.companies && r.value.store.tokens == s.tokens
      && r.value.store.posts.Keys == s.posts.Keys
    ensures r.Ok? ==> forall id :: id in s.posts ==> r.value.store.posts[id].isDeleted == s.posts[id].isDeleted
    ensures r.Ok? ==> (r.value.failure.None? <==> forall i :: 0 <= i < |items| ==> items[i].id in s.posts)
    ensures r.Ok? && r.value.failure.Some? ==> exists i :: (0 <= i < |items|
      && items[i].id !in s.posts && r.value.failure == Some(MissingPost(items[i].id)))
  {
    var u := DropFlags(items);
    assert forall i :: 0 <= i < |items| ==> (PostsViews.ItemValid(u[i]) <==> PostsViews.ItemValid(items[i]));
    PostsViews.BulkUpdateKeepsFlags(s, u, false);
    BulkFailure(s, items);
    PostsViews.BulkUpdate(s, u, false)
  }

  /** Over all posts, the loop fails exactly when some item names an id
      with no post, and then it reports one such id. */
  lemma BulkFailure(s: Store, items: seq<PostListUpdate.Item>)
    ensures var r := PostsViews.BulkUpdate(s, DropFlags(items), false);
      && (r.Ok? ==> (r.value.failure.None? <==> forall i :: 0 <= i < |items| ==> items[i].id in s.posts))
      && (r.Ok? && r.value.failure.Some? ==> exists i :: (0 <= i < |items|
            && items[i].id !in s.posts && r.value.failure == Some(MissingPost(items[i].id))))
  {
    var u := DropFlags(items);
    assert Objects(s.posts, false) == s.posts;
    assert forall i :: 0 <= i < |items| ==> u[i].id == items[i].id;
  }

  /** The finding: a staff destroy of a live post reports success but the
      post stays live, where the corrected view marks it deleted. */
  lemma DestroyPostIsLost(s: Store, a: Actor, id: nat)
    requires IsStaff(a) && id in s.posts && !s.posts[id].isDeleted
    ensures DestroyPostAsWritten(s, a, id).Ok?
    ensures !DestroyPostAsWritten(s, a, id).value.posts[id].isDeleted
    ensures DestroyPost(s, a, id).Ok? && DestroyPost(s, a, id).value.posts[id].isDeleted
  {
  }

  /** After a password reset through the serializer, logging in with the
      new password succeeds for the same user, provided the hasher accepts
      the password it just encoded. The login view reads its keys without
      stripping them, so it is given the email and password as the
      serializer stripped them. */
  lemma ResetThenLogin(s: Store, email: string, password: string, h: Hasher, now: int)
    requires RestApiSerializers.PasswordReset(s, Some(email), Some(password), h).Ok?
    requires h.check(Trim(password), h.make(Trim(password)))
    ensures var t := RestApiSerializers.PasswordReset(s, Some(email), Some(password), h).value;
      && Login(t, Some(Trim(email)), Some(Trim(password)), h, now).Ok?
      && Login(t, Some(Trim(email)), Some(Trim(password)), h, now).value.id == FirstByEmail(s.users, Trim(email)).value
  {
    var id := FirstByEmail(s.users, Trim(email)).value;
    PutKeepsSelection(s, id, s.users[id].(password := h.make(Trim(password))), Trim(email));
  }

  /** After a password change through the action, the changed user logs in
      with its email and the stripped new password, provided the hasher
      accepts the password it just encoded. */
  lemma ResetPasswordThenLogin(s: Store, a: Actor, id: nat, password: string, h: Hasher, now: int)
    requires EmailsUnique(s.users)
    requires ResetPassword(s, a, id, Some(password), h).Ok?
    requires h.check(Trim(password), h.make(Trim(password)))
    ensures id in s.users && var t := ResetPassword(s, a, id, Some(password), h).value;
      && Login(t, Some(s.users[id].email), Some(Trim(password)), h, now).Ok?
      && Login(t, Some(s.users[id].email), Some(Trim(password)), h, now).value.id == id
  {
    var email := s.users[id].email;
    var u := s.users[id].(password := h.make(Trim(password)));
    assert Required(Some(password), PasswordMaxLength);
    assert ResetPassword(s, a, id, Some(password), h) == Ok(Put(s, id, u));
    FirstByEmailFindsOwner(s.users, id);
    PutKeepsSelection(s, id, u, email);
    assert Authenticate(Put(s, id, u).users, email, Trim(password), h) == Ok(id);
  }

  /** The account lifecycle: a created user cannot log in, activation
      through its key lets it log in with the password it was created
      with. The login view does not strip, so it is given the email and
      password as the serializer stripped them. */
  lemma CreateActivateLogin(s: Store, a: Actor, f: UserForm, h: Hasher, now: int)
    requires CreateUser(s, a, f, h).Ok?
    requires h.check(Trim(f.password.value), h.make(Trim(f.password.value)))
    ensures var c := CreateUser(s, a, f, h).value;
      && Login(c.store, Cleaned(f.email), Cleaned(f.password), h, now) == Err(UserNotFound)
      && ActivateAccount(c.store, Some(c.id)).Ok?
      && Login(ActivateAccount(c.store, Some(c.id)).value, Cleaned(f.email), Cleaned(f.password), h, now).Ok?
  {
    var c := CreateUser(s, a, f, h).value;
    var u := c.store.users[c.id];
    NewRowIsSelected(s, u);
    PutKeepsSelection(c.store, c.id, u.(isActive := true), Trim(f.email.value));
  }
}

=== FILE: tables.dfy ===
/** Helpers for tables keyed by primary key: the smallest and largest key of a
    set of keys, a key that a new row may take, and bulk insertion under
    consecutive new keys (what an auto-increment primary key hands out). */
module Tables {

  predicate IsLowerBound(m: nat, s: set<nat>) {
    forall k :: k in s ==> m <= k
  }

  predicate IsUpperBound(m: nat, s: set<nat>) {
    forall k :: k in s ==> k <= m
  }

  lemma {:induction false} MinExists(s: set<nat>)
    requires s != {}
    ensures exists m :: m in s && IsLowerBound(m, s)
  {
    var x :| x in s;
    var rest := s - {x};
    if rest == {} {
      forall k | k in s
        ensures k == x
      {
        assert k !in rest;
      }
      assert IsLowerBound(x, s);
    } else {
      MinExists(rest);
      var lo :| lo in rest && IsLowerBound(lo, rest);
      var m := if x <= lo then x else lo;
      forall k | k in s
        ensures m <= k
      {
        if k != x {
          assert k in rest;
        }
      }
      assert m in s && IsLowerBound(m, s);
    }
  }

  lemma {:induction false} MaxExists(s: set<nat>)
    requires s != {}
    ensures exists m :: m in s && IsUpperBound(m, s)
  {
    var x :| x in s;
    var rest := s - {x};
    if rest == {} {
      forall k | k in s
        ensures k == x
      {
        assert k !in rest;
      }
      assert IsUpperBound(x, s);
    } else {
      MaxExists(rest);
      var hi :| hi in rest && IsUpperBound(hi, rest);
      var m := if hi <= x then x else hi;
      forall k | k in s
        ensures k <= m
      {
        if k != x {
          assert k in rest;
        }
      }
      assert m in s && IsUpperBound(m, s);
    }
  }

  /** The smallest key: what `.first()` returns from an unordered queryset,
      which the ORM orders by primary key. */
  function MinKey(s: set<nat>): (m: nat)
    requires s != {}
    ensures m in s
    ensures forall k :: k in s ==> m <= k
  {
    MinExists(s);
    var m :| m in s && IsLowerBound(m, s);
    m
  }

  function MaxKey(s: set<nat>): (m: nat)
    requires s != {}
    ensures m in s
    ensures forall k :: k in s ==> k <= m
  {
    MaxExists(s);
    var m :| m in s && IsUpperBound(m, s);
    m
  }

  /** A key above every key in use: the next value of the primary-key sequence. */
  function FreshKey(s: set<nat>): (k: nat)
    ensures k !in s
    ensures forall j :: j in s ==> j < k
  {
    if s == {} then 1 else MaxKey(s) + 1
  }

  predicate InRange(k: nat, base: nat, n: nat) {
    base <= k < base + n
  }

  /** The keys `base`, ..., `base + n - 1`. */
  function KeyRange(base: nat, n: nat): (r: set<nat>)
    ensures forall k :: k in r <==> InRange(k, base, n)
  {
    set k: nat | base <= k < base + n && InRange(k, base, n)
  }

  /** Inserts `rows` under the consecutive keys `base`, `base + 1`, ...
      (one bulk insert), leaving every existing row as it was. */
  function InsertAll<T>(m: map<nat, T>, rows: seq<T>, base: nat): (r: map<nat, T>)
    requires forall k :: k in m ==> k < base
    ensures r.Keys == m.Keys + KeyRange(base, |rows|)
    ensures forall k :: k in m ==> r[k] == m[k]
    ensures forall i :: 0 <= i < |rows| ==> base + i in r && r[base + i] == rows[i]
  {
    var keys := KeyRange(base, |rows|);
    m + map k | k in keys :: rows[k - base]
  }
}

=== FILE: users_api.dfy ===
/** The serializers of the later revision (users/serializers.py). */
module UsersSerializers {
  import opened Outcomes
  import opened Models
  import opened Fields
  import opened Accounts
  import Tables

  /** The nested `CompanySerializer` of a registration, on the stripped
      values: a non-blank name within its column, a non-blank url, an
      address within its column, and a date. The declared `url` field has
      no `max_length`, so the url's length is not checked: a valid company,
      once cleaned, fits every column but possibly the url's. */
  predicate CompanyValid(c: Company): (b: bool)
    ensures b ==> var d := CleanCompany(c);
      d.name != "" && d.url.Some? && d.url.value != "" && CompanyFits(d.(url := None))
  {
    && Required(Some(c.name), CompanyNameMaxLength)
    && Present(c.url)
    && Fits(Cleaned(c.address), AddressMaxLength)
    && c.dateCreated != ""
  }

  /** A valid company stays valid whatever non-blank url replaces its own,
      however long. */
  lemma UrlLengthUnchecked(c: Company, url: string)
    requires CompanyValid(c) && Trim(url) != ""
    ensures CompanyValid(c.(url := Some(url)))
  {
  }

  /** The company the nested serializer passes on: its text fields
      stripped. */
  function CleanCompany(c: Company): (d: Company)
    ensures d.dateCreated == c.dateCreated
    ensures d.url.Some? <==> c.url.Some?
    ensures Required(Some(c.name), CompanyNameMaxLength) ==> d.name != "" && |d.name| <= CompanyNameMaxLength
    ensures Present(c.url) ==> d.url.value != ""
    ensures Fits(Cleaned(c.address), AddressMaxLength) ==> Fits(d.address, AddressMaxLength)
  {
    c.(name := Trim(c.name), url := Cleaned(c.url), address := Cleaned(c.address))
  }

  /** The user fields every form of this revision checks, on the stripped
      values: a non-blank email of at most 255 characters that no user
      holds, a non-blank password of at most 128, and the profile bounds. */
  predicate UserFieldsValid(s: Store, f: UserForm) {
    && Required(f.email, EmailMaxLength) && !EmailUsed(s.users, Trim(f.email.value))
    && Required(f.password, PasswordMaxLength)
    && ProfileFits(f)
  }

  function FieldError(s: Store, f: UserForm): (e: Error)
    requires !UserFieldsValid(s, f)
    ensures e.InvalidField?
  {
    if !Required(f.email, EmailMaxLength) || EmailUsed(s.users, Trim(f.email.value)) then InvalidField("email")
    else if !Required(f.password, PasswordMaxLength) then InvalidField("password")
    else InvalidField("profile")
  }

  /** `AdminRegisterSerializer.create`: a new company is stored and the new
      user, an Admin and staff, belongs to it. The submitted role and
      company key are overridden. */
  function AdminRegister(s: Store, f: UserForm, c: Company, h: Hasher): (r: Result<Saved>)
    ensures r.Ok? <==> UserFieldsValid(s, f) && CompanyValid(c)
    ensures r.Err? ==> r.error.InvalidField?
    ensures r.Ok? ==> r.value.id !in s.users && r.value.id in r.value.store.users
    ensures r.Ok? ==> var u := r.value.store.users[r.value.id];
      && u.company.Some? && u.company.value !in s.companies
      && r.value.store.companies == s.companies[u.company.value := CleanCompany(c)]
      && r.value.store.users == s.users[r.value.id := u]
      && r.value.store.posts == s.posts && r.value.store.tokens == s.tokens
      && u.email == Trim(f.email.value) && u.password == h.make(Trim(f.password.value))
      && u.userType == Admin && u.isStaff && !u.isSuperuser
      && u.isActive == f.isActive.GetOr(true)
    ensures r.Ok? ==> var u := r.value.store.users[r.value.id];
      CompanyFits(r.value.store.companies[u.company.value]) <==> Fits(Cleaned(c.url), UrlMaxLength)
  {
    if !UserFieldsValid(s, f) then Err(FieldError(s, f))
    else if !CompanyValid(c) then Err(InvalidField("company"))
    else
      var cid := Tables.FreshKey(s.companies.Keys);
      var u := FromForm(f, Admin, h).(isStaff := true, company := Some(cid));
      Ok(Add(s.(companies := s.companies[cid := CleanCompany(c)]), u))
  }

  /** A registration keeps the database constraints. */
  lemma AdminRegisterPreservesValid(s: Store, f: UserForm, c: Company, h: Hasher)
    requires Valid(s)
    requires AdminRegister(s, f, c, h).Ok?
    ensures Valid(AdminRegister(s, f, c, h).value.store)
  {
    var cid := Tables.FreshKey(s.companies.Keys);
    var s1 := s.(companies := s.companies[cid := CleanCompany(c)]);
    var u := FromForm(f, Admin, h).(isStaff := true, company := Some(cid));
    assert AdminRegister(s, f, c, h) == Ok(Add(s1, u));
    AddPreservesValid(s1, u);
  }

  /** `LoginSerializer` validation: the field bounds; the optional
      `company` key, which must name an existing company when given; then
      `Authenticate` of the stripped email and password. The company plays
      no part in the lookup. */
  function LoginValidate(s: Store, email: Option<string>, password: Option<string>, company: Option<nat>, h: Hasher): (r: Result<nat>)
    ensures !Required(email, EmailMaxLength) ==> r == Err(InvalidField("email"))
    ensures Required(email, EmailMaxLength) && !Required(password, PasswordMaxLength) ==> r == Err(InvalidField("password"))
    ensures (Required(email, EmailMaxLength) && Required(password, PasswordMaxLength)
      && company.Some? && company.value !in s.companies) ==> r == Err(InvalidField("company"))
    ensures (Required(email, EmailMaxLength) && Required(password, PasswordMaxLength)
      && (company.None? || company.value in s.companies)) ==> r == Authenticate(s.users, Trim(email.value), Trim(password.value), h)
  {
    if !Required(email, EmailMaxLength) then Err(InvalidField("email"))
    else if !Required(password, PasswordMaxLength) then Err(InvalidField("password"))
    else if company.Some? && company.value !in s.companies then Err(InvalidField("company"))
    else Authenticate(s.users, Trim(email.value), Trim(password.value), h)
  }

  /** `PasswordResetSerializer.validate` of this revision: the same lookup
      as the earlier revision, but the new password is set on the loaded
      row and never saved, so the result is only the user found. */
  function PasswordResetValidate(s: Store, email: Option<string>, password: Option<string>): (r: Result<nat>)
    ensures !Required(email, EmailMaxLength) ==> r == Err(InvalidField("email"))
    ensures Required(email, EmailMaxLength) && !Required(password, PasswordMaxLength) ==> r == Err(InvalidField("password"))
    ensures Required(email, EmailMaxLength) && Required(password, PasswordMaxLength) ==>
      var sel := FirstByEmail(s.users, Trim(email.value));
      && (r.Ok? <==> (sel.Some? && s.users[sel.value].isActive))
      && (r.Ok? ==> r.value == sel.value)
      && (r.Err? ==> r.error == UserNotFound)
  {
    if !Required(email, EmailMaxLength) then Err(InvalidField("email"))
    else if !Required(password, PasswordMaxLength) then Err(InvalidField("password"))
    else match FirstByEmail(s.users, Trim(email.value))
      case None => Err(UserNotFound)
      case Some(id) => if s.users[id].isActive then Ok(id) else Err(UserNotFound)
  }

  /** `UserSerializer.create` of this revision: the role defaults to Client,
      a company key is required (its existence is left to the database),
      staff exactly for an Admin, always inactive. */
  function CreateUser(s: Store, f: UserForm, h: Hasher): (r: Result<Saved>)
    ensures !UserFieldsValid(s, f) ==> r.Err? && r.error.InvalidField?
    ensures UserFieldsValid(s, f) && f.company.None? ==> r == Err(InvalidField("company"))
    ensures UserFieldsValid(s, f) && f.company.Some? ==>
      && (r.Ok? <==> f.company.value in s.companies)
      && (r.Err? ==> r.error == IntegrityError)
    ensures r.Ok? ==> r.value.id !in s.users && r.value.id in r.value.store.users
    ensures r.Ok? ==> var u := r.value.store.users[r.value.id];
      && r.value.store == s.(users := s.users[r.value.id := u])
      && u.email == Trim(f.email.value) && u.password == h.make(Trim(f.password.value))
      && u.userType == f.userType.GetOr(DefaultRole) && u.company == f.company
      && !u.isActive && (u.isStaff <==> u.userType == Admin) && !u.isSuperuser
  {
    if !UserFieldsValid(s, f) then Err(FieldError(s, f))
    else if f.company.None? then Err(InvalidField("company"))
    else if f.company.value !in s.companies then Err(IntegrityError)
    else
      var role := f.userType.GetOr(DefaultRole);
      Ok(Add(s, FromForm(f, role, h).(isStaff := role == Admin, isActive := false)))
  }

  /** Creating a user keeps the database constraints. */
  lemma CreateUserPreservesValid(s: Store, f: UserForm, h: Hasher)
    requires Valid(s)
    requires CreateUser(s, f, h).Ok?
    ensures Valid(CreateUser(s, f, h).value.store)
  {
    var role := f.userType.GetOr(DefaultRole);
    var u := FromForm(f, role, h).(isStaff := role == Admin, isActive := false);
    assert CreateUser(s, f, h) == Ok(Add(s, u));
    AddPreservesValid(s, u);
  }

  /** The row an invite creates: only the email is set, and it is inactive. */
  function Invited(email: string): (u: User)
    ensures u.email == email && !u.isActive && u.company.None?
  {
    NewUser(email).(isActive := false)
  }

  predicate AllDistinct(emails: seq<string>) {
    forall i, j :: 0 <= i < j < |emails| ==> emails[i] != emails[j]
  }

  predicate NoneUsed(users: map<nat, User>, emails: seq<string>) {
    forall i :: 0 <= i < |emails| ==> !EmailUsed(users, emails[i])
  }

  datatype Invitation = Invitation(store: Store, first: nat, count: nat)

  /** Every submitted email is non-blank and within the column once
      stripped. */
  predicate EmailsRequired(emails: seq<string>) {
    forall i :: 0 <= i < |emails| ==> Required(Some(emails[i]), EmailMaxLength)
  }

  /** The emails as the list's character fields pass them on. */
  function Stripped(emails: seq<string>): (r: seq<string>)
    ensures |r| == |emails|
    ensures forall i :: 0 <= i < |emails| ==> r[i] == Trim(emails[i])
  {
    seq(|emails|, i requires 0 <= i < |emails| => Trim(emails[i]))
  }

  /** `InviteUserSerializer`: every listed email is validated by the list's
      character field, and `create` receives them stripped. */
  function InviteUsers(s: Store, emails: seq<string>): (r: Result<Invitation>)
    ensures !EmailsRequired(emails) ==> r == Err(InvalidField("email"))
    ensures EmailsRequired(emails) ==> r == Invite(s, Stripped(emails))
  {
    if !EmailsRequired(emails) then Err(InvalidField("email"))
    else Invite(s, Stripped(emails))
  }

  /** `InviteUserSerializer.create`: one bulk insert of an invited row per
      email, in list order, under consecutive new keys. A repeated or
      already used email makes the whole insert fail. */
  function Invite(s: Store, emails: seq<string>): (r: Result<Invitation>)
    ensures r.Ok? <==> AllDistinct(emails) && NoneUsed(s.users, emails)
    ensures r.Err? ==> r.error == IntegrityError
    ensures r.Ok? ==> r.value.count == |emails| && InvitedAt(s, r.value.store, r.value.first, emails)
    ensures Valid(s) && r.Ok? ==> Valid(r.value.store)
  {
    if !AllDistinct(emails) || !NoneUsed(s.users, emails) then Err(IntegrityError)
    else
      var base := Tables.FreshKey(s.users.Keys);
      Ok(Invitation(AddInvited(s, emails, base), base, |emails|))
  }

  /** The invited rows, one per email, in list order. */
  function InvitedRows(emails: seq<string>): (rows: seq<User>)
    ensures |rows| == |emails|
    ensures forall i :: 0 <= i < |emails| ==> rows[i] == Invited(emails[i])
  {
    seq(|emails|, i requires 0 <= i < |emails| => Invited(emails[i]))
  }

  /** `t` is `s` with one invited row per email, in list order, under
      consecutive keys from `base`, which lies above every existing key;
      no existing row and no other table changes. */
  predicate InvitedAt(s: Store, t: Store, base: nat, emails: seq<string>) {
    && (forall id :: id in s.users ==> id < base)
    && t.users.Keys == s.users.Keys + Tables.KeyRange(base, |emails|)
    && (forall id :: id in s.users ==> t.users[id] == s.users[id])
    && (forall i :: 0 <= i < |emails| ==> base + i in t.users && t.users[base + i] == Invited(emails[i]))
    && t.companies == s.companies && t.posts == s.posts && t.tokens == s.tokens
  }

  /** One bulk insert of the invited rows under consecutive keys from
      `base`. */
  function AddInvited(s: Store, emails: seq<string>, base: nat): (t: Store)
    requires forall id :: id in s.users ==> id < base
    ensures InvitedAt(s, t, base, emails)
    ensures Valid(s) && AllDistinct(emails) && NoneUsed(s.users, emails) ==> Valid(t)
  {
    var t := s.(users := Tables.InsertAll(s.users, InvitedRows(emails), base));
    InsertPreservesValid(s, t, base, emails);
    t
  }

  /** Adding rows under new keys whose emails are distinct and unused
      keeps emails unique. */
  lemma {:induction false} InsertKeepsEmailsUnique(before: map<nat, User>, after: map<nat, User>, base: nat, emails: seq<string>)
    requires EmailsUnique(before) && AllDistinct(emails) && NoneUsed(before, emails)
    requires after.Keys == before.Keys + Tables.KeyRange(base, |emails|)
    requires forall k :: k in before ==> k < base && after[k] == before[k]
    requires forall i :: 0 <= i < |emails| ==> after[base + i].email == emails[i]
    ensures EmailsUnique(after)
  {
    forall a, b | a in after && b in after && a != b
      ensures after[a].email != after[b].email
    {
      if a in before && b in before {
        assert before[a].email != before[b].email;
      } else if a in before {
        var j := b - base;
        assert after[base + j].email == emails[j];
        assert !EmailUsed(before, emails[j]);
      } else if b in before {
        var i := a - base;
        assert after[base + i].email == emails[i];
        assert !EmailUsed(before, emails[i]);
      } else {
        var i, j := a - base, b - base;
        assert after[base + i].email == emails[i];
        assert after[base + j].email == emails[j];
      }
    }
  }

  /** Adding invited rows under new keys keeps the database constraints. */
  lemma {:induction false} InsertPreservesValid(s: Store, t: Store, base: nat, emails: seq<string>)
    requires t.users.Keys == s.users.Keys + Tables.KeyRange(base, |emails|)
    requires forall k :: k in s.users ==> k < base && t.users[k] == s.users[k]
    requires forall i :: 0 <= i < |emails| ==> t.users[base + i] == Invited(emails[i])
    requires t.companies == s.companies && t.posts == s.posts && t.tokens == s.tokens
    ensures Valid(s) && AllDistinct(emails) && NoneUsed(s.users, emails) ==> Valid(t)
  {
    if Valid(s) && AllDistinct(emails) && NoneUsed(s.users, emails) {
      InsertKeepsEmailsUnique(s.users, t.users, base, emails);
      forall u | u in t.users && u !in s.users
        ensures t.users[u].company.None?
      {
        var i := u - base;
        assert t.users[base + i] == Invited(emails[i]);
      }
    }
  }
}

/** The views of the later revision (users/views.py), as they would run if
    their import of `InviteToken` from users/models.py, which declares no
    such class, succeeded. */
module UsersViews {
  import opened Outcomes
  import opened Models
  import opened Fields
  import opened Accounts
  import opened Requests
  import opened InviteTokens
  import UsersPermissions
  import UsersSerializers
  import RestApiViews

  /** `AdminRegistrationView.create`: the registered admin is logged in. */
  function RegisterAdmin(s: Store, f: UserForm, c: Company, h: Hasher, now: int): (r: Result<Saved>)
    ensures r.Ok? <==> UsersSerializers.AdminRegister(s, f, c, h).Ok?
    ensures r.Ok? ==> var reg := UsersSerializers.AdminRegister(s, f, c, h).value;
      r.value.id == reg.id && r.value.id in reg.store.users && r.value.store == TouchLogin(reg.store, reg.id, now)
  {
    var reg :- UsersSerializers.AdminRegister(s, f, c, h);
    Ok(Saved(TouchLogin(reg.store, reg.id, now), reg.id))
  }

  /** `LoginView.post`: the serializer's checks, then the last login. */
  function Login(s: Store, email: Option<string>, password: Option<string>, company: Option<nat>, h: Hasher, now: int): (r: Result<Saved>)
    ensures r.Ok? <==> UsersSerializers.LoginValidate(s, email, password, company, h).Ok?
    ensures r.Err? ==> r.error == UsersSerializers.LoginValidate(s, email, password, company, h).error
    ensures r.Ok? ==> FirstByEmail(s.users, Trim(email.value)) == Some(r.value.id) && r.value.store == TouchLogin(s, r.value.id, now)
  {
    var id :- UsersSerializers.LoginValidate(s, email, password, company, h);
    Ok(Saved(TouchLogin(s, id, now), id))
  }

  /** Both revisions' logins agree on every well-formed request, once the
      earlier view, which reads its keys without stripping them, is given
      them stripped; on values with no surrounding whitespace they agree
      outright. A request naming a company that exists is answered as one
      naming none; one naming a missing company is refused before any
      lookup. */
  lemma LoginAgreesWithEarlierRevision(s: Store, email: string, password: string, company: Option<nat>, h: Hasher, now: int)
    requires Required(Some(email), EmailMaxLength) && Required(Some(password), PasswordMaxLength)
    ensures company.None? || company.value in s.companies ==>
      Login(s, Some(email), Some(password), company, h, now) == RestApiViews.Login(s, Some(Trim(email)), Some(Trim(password)), h, now)
    ensures Trim(email) == email && Trim(password) == password ==>
      Login(s, Some(email), Some(password), None, h, now) == RestApiViews.Login(s, Some(email), Some(password), h, now)
    ensures company.Some? && company.value !in s.companies ==>
      Login(s, Some(email), Some(password), company, h, now) == Err(InvalidField("company"))
  {
    var au := Authenticate(s.users, Trim(email), Trim(password), h);
    if company.None? || company.value in s.companies {
      assert UsersSerializers.LoginValidate(s, Some(email), Some(password), company, h) == au;
      assert UsersSerializers.LoginValidate(s, Some(email), Some(password), None, h) == au;
    }
  }

  /** `PasswordResetView.post`: validation only; the store is returned as it
      was, whatever the outcome. */
  function RequestPasswordReset(s: Store, email: Option<string>, password: Option<string>): (r: Result<Store>)
    ensures r.Ok? <==> UsersSerializers.PasswordResetValidate(s, email, password).Ok?
    ensures r.Ok? ==> r.value == s
  {
    var _ :- UsersSerializers.PasswordResetValidate(s, email, password);
    Ok(s)
  }

  /** A reset request leaves every login outcome as it was: the old
      password still works and the new one works only if it already did. */
  lemma ResetRequestKeepsLogins(s: Store, email: Option<string>, password: Option<string>, e: Option<string>, p: Option<string>, c: Option<nat>, h: Hasher, now: int)
    requires RequestPasswordReset(s, email, password).Ok?
    ensures Login(RequestPasswordReset(s, email, password).value, e, p, c, h, now) == Login(s, e, p, c, h, now)
  {
  }

  /** The claims of a signed link: `user_id` and `password` when present. */
  datatype Claims = Claims(userId: Option<nat>, password: Option<string>)

  /** `ConfirmResetPassword.post`: the link must decode (`None` otherwise)
      and carry both claims; the named user's stored password becomes the
      `password` claim exactly as given, and the user is logged in. */
  function ConfirmResetPassword(s: Store, claims: Option<Claims>, now: int): (r: Result<Saved>)
    ensures claims.None? ==> r == Err(InvalidToken)
    ensures claims.Some? && claims.value.userId.None? ==> r == Err(MissingKey("user_id"))
    ensures claims.Some? && claims.value.userId.Some? && claims.value.password.None? ==> r == Err(MissingKey("password"))
    ensures claims.Some? && claims.value.userId.Some? && claims.value.password.Some? ==>
      (r.Ok? <==> claims.value.userId.value in s.users) && (r.Err? ==> r.error == DoesNotExist)
    ensures r.Ok? ==> (r.value.id == claims.value.userId.value
      && r.value.store == Put(s, r.value.id, s.users[r.value.id].(password := claims.value.password.value, lastLogin := Some(now))))
  {
    if claims.None? then Err(InvalidToken)
    else if claims.value.userId.None? then Err(MissingKey("user_id"))
    else if claims.value.password.None? then Err(MissingKey("password"))
    else if claims.value.userId.value !in s.users then Err(DoesNotExist)
    else
      var id := claims.value.userId.value;
      Ok(Saved(Put(s, id, s.users[id].(password := claims.value.password.value, lastLogin := Some(now))), id))
  }

  /** Confirming the same link twice at the same moment is confirming it
      once. */
  lemma ConfirmIsIdempotent(s: Store, claims: Option<Claims>, now: int)
    requires ConfirmResetPassword(s, claims, now).Ok?
    ensures var t := ConfirmResetPassword(s, claims, now).value.store;
      ConfirmResetPassword(t, claims, now) == ConfirmResetPassword(s, claims, now).(value := Saved(t, claims.value.userId.value))
  {
    var id := claims.value.userId.value;
    var t := ConfirmResetPassword(s, claims, now).value.store;
    assert t.users[id := t.users[id].(password := claims.value.password.value, lastLogin := Some(now))] == t.users;
  }

  /** `ActivateAccount.get` of this revision: the link must decode and name
      a user (a failed lookup leaves `user = None`, which the following
      attribute write rejects); the user becomes active and logged in. */
  function ActivateAccount(s: Store, claims: Option<Claims>, now: int): (r: Result<Saved>)
    ensures claims.None? ==> r == Err(InvalidToken)
    ensures claims.Some? && claims.value.userId.None? ==> r == Err(MissingKey("user_id"))
    ensures claims.Some? && claims.value.userId.Some? ==>
      (r.Ok? <==> claims.value.userId.value in s.users) && (r.Err? ==> r.error == DoesNotExist)
    ensures r.Ok? ==> (r.value.id == claims.value.userId.value
      && r.value.store == Put(s, r.value.id, s.users[r.value.id].(isActive := true, lastLogin := Some(now))))
  {
    if claims.None? then Err(InvalidToken)
    else if claims.value.userId.None? then Err(MissingKey("user_id"))
    else if claims.value.userId.value !in s.users then Err(DoesNotExist)
    else
      var id := claims.value.userId.value;
      Ok(Saved(Put(s, id, s.users[id].(isActive := true, lastLogin := Some(now))), id))
  }

  /** Activation agrees with the earlier revision's on the active flag: the
      stores differ at most in the activated user's last login. */
  lemma ActivationAgreesWithEarlierRevision(s: Store, id: nat, now: int)
    requires id in s.users
    ensures ActivateAccount(s, Some(Claims(Some(id), None)), now).Ok? && RestApiViews.ActivateAccount(s, Some(id)).Ok?
    ensures ActivateAccount(s, Some(Claims(Some(id), None)), now).value.store ==
      TouchLogin(RestApiViews.ActivateAccount(s, Some(id)).value, id, now)
  {
    var t := RestApiViews.ActivateAccount(s, Some(id)).value;
    assert t.users[id := t.users[id].(lastLogin := Some(now))] == s.users[id := s.users[id].(isActive := true, lastLogin := Some(now))];
  }

  /** `UserViewset.list` of this revision: the anonymous user is refused;
      staff see every user, anyone else only themself. */
  function ListUsers(s: Store, a: Actor): (r: Result<set<nat>>)
    ensures a.Anonymous? ==> r == Err(NotAuthenticated)
    ensures a.Authenticated? ==> r.Ok? && r.value <= s.users.Keys
    ensures IsStaff(a) ==> r == Ok(s.users.Keys)
    ensures a.Authenticated? && !IsStaff(a) ==> r == Ok(if a.id in s.users then {a.id} else {})
  {
    if !UsersPermissions.HasPermission(GET, a) then Err(Denied(a))
    else if IsStaff(a) then Ok(s.users.Keys)
    else if a.id in s.users then Ok({a.id})
    else Ok({})
  }

  /** For an authenticated actor the listing is the earlier revision's. */
  lemma ListUsersAgreesWithEarlierRevision(s: Store, a: Actor)
    requires a.Authenticated?
    ensures ListUsers(s, a) == Ok(RestApiViews.ListUsers(s, a))
  {
  }

  /** `UserViewset.destroy`: staff only, a hard delete of any user. */
  function DestroyUser(s: Store, a: Actor, id: nat): (r: Result<Store>)
    ensures !IsStaff(a) ==> r == Err(Denied(a))
    ensures IsStaff(a) ==> (r.Ok? <==> id in s.users) && (r.Err? ==> r.error == DoesNotExist)
    ensures r.Ok? ==> r.value == DeleteUser(s, id)
  {
    if !UsersPermissions.HasPermission(DELETE, a) then Err(Denied(a))
    else if id !in s.users then Err(DoesNotExist)
    else Ok(DeleteUser(s, id))
  }

  /** The destroy of both revisions is the same operation. */
  lemma DestroyAgreesWithEarlierRevision(s: Store, a: Actor, id: nat)
    ensures DestroyUser(s, a, id) == RestApiViews.DestroyUser(s, a, id)
  {
  }

  /** `UserViewset.create`: staff only; the serializer creates the user. */
  function CreateUser(s: Store, a: Actor, f: UserForm, h: Hasher): (r: Result<Saved>)
    ensures !IsStaff(a) ==> r == Err(Denied(a))
    ensures IsStaff(a) ==> r == UsersSerializers.CreateUser(s, f, h)
  {
    if !UsersPermissions.HasPermission(POST, a) then Err(Denied(a))
    else UsersSerializers.CreateUser(s, f, h)
  }

  /** `InviteUsers.create`: staff only; the serializer inserts the rows. */
  function InviteUsers(s: Store, a: Actor, emails: seq<string>): (r: Result<UsersSerializers.Invitation>)
    ensures !IsStaff(a) ==> r == Err(Denied(a))
    ensures IsStaff(a) ==> r == UsersSerializers.InviteUsers(s, emails)
  {
    if !UsersPermissions.HasPermission(POST, a) then Err(Denied(a))
    else UsersSerializers.InviteUsers(s, emails)
  }

  /** An invited user cannot log in until activated, whatever password is
      tried. */
  lemma InvitedCannotLogin(s: Store, emails: seq<string>, i: nat, password: string, h: Hasher)
    requires Valid(s) && UsersSerializers.InviteUsers(s, emails).Ok? && i < |emails|
    ensures Authenticate(UsersSerializers.InviteUsers(s, emails).value.store.users, Trim(emails[i]), password, h) == Err(UserNotFound)
  {
    var clean := UsersSerializers.Stripped(emails);
    assert UsersSerializers.InviteUsers(s, emails) == UsersSerializers.Invite(s, clean);
    InvitedRowLocked(s, clean, i, password, h);
  }

  /** The row an invitation inserts for an email is the one that email
      selects, and it is inactive. */
  lemma InvitedRowLocked(s: Store, emails: seq<string>, i: nat, password: string, h: Hasher)
    requires Valid(s) && UsersSerializers.Invite(s, emails).Ok? && i < |emails|
    ensures Authenticate(UsersSerializers.Invite(s, emails).value.store.users, emails[i], password, h) == Err(UserNotFound)
  {
    var r := UsersSerializers.Invite(s, emails).value;
    var users := r.store.users;
    assert UsersSerializers.InvitedAt(s, r.store, r.first, emails);
    assert r.first + i in users && users[r.first + i] == UsersSerializers.Invited(emails[i]);
    assert EmailsUnique(users);
    InactiveOwnerLocked(users, r.first + i, password, h);
  }

  /** The owner of an email, when inactive, is refused before any password
      check. */
  lemma InactiveOwnerLocked(users: map<nat, User>, id: nat, password: string, h: Hasher)
    requires EmailsUnique(users) && id in users && !users[id].isActive
    ensures Authenticate(users, users[id].email, password, h) == Err(UserNotFound)
  {
    FirstByEmailFindsOwner(users, id);
  }

  /** The token an accept request names and the user it invites. */
  function InvitedBy(s: Store, value: string, now: int): (r: Result<(nat, nat)>)
    ensures r.Ok? ==> (GetByValue(s.tokens, value, now).Ok? && r.value.0 == GetByValue(s.tokens, value, now).value
      && r.value.0 in s.tokens && r.value.1 == s.tokens[r.value.0].user && r.value.1 in s.users)
    ensures r.Err? ==> r.error == InviteTokenNotFound || r.error == MultipleObjects
    ensures GetByValue(s.tokens, value, now).Err? ==> r == Err(GetByValue(s.tokens, value, now).error)
    ensures GetByValue(s.tokens, value, now).Ok? ==>
      (r.Ok? <==> s.tokens[GetByValue(s.tokens, value, now).value].user in s.users)
  {
    var tid :- GetByValue(s.tokens, value, now);
    var uid := s.tokens[tid].user;
    if uid !in s.users then Err(InviteTokenNotFound) else Ok((tid, uid))
  }

  /** The form the accept serializer validates: an absent or empty email is
      replaced by the invited user's. The test is on the raw value, so an
      email of only whitespace is kept (and then fails as blank). */
  function AcceptForm(f: UserForm, current: User): (g: UserForm)
    ensures g == f.(email := g.email)
    ensures Given(f.email) ==> g.email == f.email
    ensures !Given(f.email) ==> g.email == Some(current.email)
  {
    if Given(f.email) then f else f.(email := Some(current.email))
  }

  /** The accept serializer's validation of the invited user `uid`, on the
      stripped values: the unique-email check leaves out the user being
      updated. */
  predicate AcceptValid(s: Store, uid: nat, g: UserForm): (b: bool)
    ensures b ==> Present(g.email) && Present(g.password) && !EmailUsed(s.users - {uid}, Trim(g.email.value))
  {
    && Required(g.email, EmailMaxLength)
    && (forall id :: id in s.users && id != uid ==> s.users[id].email != Trim(g.email.value))
    && Required(g.password, PasswordMaxLength)
    && ProfileFits(g)
    && (g.company.None? || g.company.value in s.companies)
  }

  /** What the validation promises a save of the invited row: writing it
      from an accepted form keeps the database constraints. */
  lemma AcceptedFormKeepsValid(s: Store, uid: nat, g: UserForm, h: Hasher)
    requires Valid(s) && uid in s.users && AcceptValid(s, uid, g)
    ensures Valid(Put(s, uid, FromForm(g, s.users[uid].userType, h)))
  {
    var u := FromForm(g, s.users[uid].userType, h);
    assert u.email == Trim(g.email.value) && u.company == g.company;
    PutPreservesValid(s, uid, u);
  }

  /** `AcceptInvite.partial_update` as written: the serializer's `update`
      returns nothing, so saving fails after validation and the token is
      never consumed. */
  function AcceptInviteAsWritten(s: Store, value: string, f: UserForm, now: int): (r: Result<Store>)
    ensures r.Err?
    ensures InvitedBy(s, value, now).Err? ==> r.error == InvitedBy(s, value, now).error
    ensures InvitedBy(s, value, now).Ok? ==> var uid := InvitedBy(s, value, now).value.1;
      (r.error == UpdateReturnedNone <==> AcceptValid(s, uid, AcceptForm(f, s.users[uid])))
  {
    var ids :- InvitedBy(s, value, now);
    var g := AcceptForm(f, s.users[ids.1]);
    if !AcceptValid(s, ids.1, g) then Err(InvalidField("form"))
    else Err(UpdateReturnedNone)
  }

  /** `AcceptInvite.partial_update` with `update` returning the unchanged
      instance: after validation the token is consumed (status off,
      expiry now) and nothing else changes. */
  function AcceptInvite(s: Store, value: string, f: UserForm, now: int): (r: Result<Store>)
    ensures InvitedBy(s, value, now).Err? ==> r == Err(InvitedBy(s, value, now).error)
    ensures InvitedBy(s, value, now).Ok? ==> var uid := InvitedBy(s, value, now).value.1;
      (r.Ok? <==> AcceptValid(s, uid, AcceptForm(f, s.users[uid])))
    ensures r.Ok? ==> var tid := GetByValue(s.tokens, value, now).value;
      tid in s.tokens && r.value == s.(tokens := s.tokens[tid := Consume(s.tokens[tid], now)])
  {
    var ids :- InvitedBy(s, value, now);
    var g := AcceptForm(f, s.users[ids.1]);
    if !AcceptValid(s, ids.1, g) then Err(InvalidField("form"))
    else Ok(s.(tokens := s.tokens[ids.0 := Consume(s.tokens[ids.0], now)]))
  }

  /** The finding: every accept the corrected view completes fails as
      written, leaving the token usable. */
  lemma AcceptInviteNeverCompletes(s: Store, value: string, f: UserForm, now: int)
    requires AcceptInvite(s, value, f, now).Ok?
    ensures AcceptInviteAsWritten(s, value, f, now) == Err(UpdateReturnedNone)
    ensures GetByValue(s.tokens, value, now).Ok?
  {
  }

  /** An accepted invite cannot be accepted again, at the same or any
      later time and with any form: the consumed token was the only
      retrievable one with the value, and no other token becomes
      retrievable as the clock advances. */
  lemma AcceptInviteIsSingleUse(s: Store, value: string, f: UserForm, now: int, g: UserForm, later: int)
    requires now <= later
    requires AcceptInvite(s, value, f, now).Ok?
    ensures AcceptInvite(AcceptInvite(s, value, f, now).value, value, g, later) == Err(InviteTokenNotFound)
  {
    var tid := GetByValue(s.tokens, value, now).value;
    var t := AcceptInvite(s, value, f, now).value;
    assert t.tokens == s.tokens[tid := Consume(s.tokens[tid], now)];
    forall id | id in t.tokens && t.tokens[id].value == value
      ensures !Retrievable(t.tokens[id], later)
    {
      if id != tid && Retrievable(t.tokens[id], later) {
        assert Retrievable(s.tokens[id], now);
      }
    }
    assert GetByValue(t.tokens, value, later) == Err(InviteTokenNotFound);
    assert InvitedBy(t, value, later) == Err(InviteTokenNotFound);
  }
}
